=== FILE: README.md ===
# Bus registration: a Dafny model of the state engine and its screens

This project models the core of a bus-seat registration web application.
Students take a numbered ticket on one of several bus routes. The
administrator manages the students of each route, keeps a list of
"clarifications" (codes that may not register), and configures the routes:
name, subtitle, capacity, colour, whether the route is active, and its
position in the listing.

The model follows the program's structure, one module per file of the application:

- `Types` (types.dfy): the records of `src/types/index.ts`. They are the
  student, the clarification, the route configuration and the application
  state.
- `Text` (text.dfy): the JavaScript string operations the rules depend on:
  `trim`, `toLowerCase`, `includes`, the slug built by `addRoute`, and
  `parseInt(v) || 0`.
- `Seqs` (seqs.dfy): the JavaScript array operations the rules depend on:
  `filter`, `indexOf`, the numeric-comparator `sort`, and the drag-and-drop
  library's `arrayMove`. It also holds the pairwise-distinctness predicate.
- `Routes` (routes.dfy): the route map. This covers the density of route
  orders (n routes hold the orders 0..n-1), the sorted listing, `addRoute`,
  the `updateRouteConfig` merge, `deleteRoute`'s compaction and
  `reorderRoutes`' shift.
- `AppContext` (app_context.dfy): the state engine. It holds every operation
  of the context provider and the invariant `Valid`, and proves that every
  operation preserves `Valid`.
- `RegistrationForm`, `EditStudentModal`, `RegistrationDisplay`,
  `StudentManagement` and `RouteConfiguration`: the rules of the five
  screens. These are the field checks and the order in which they run, the
  filters, the ordering and pagination of lists, bulk deletion, the status
  buttons, drag-and-drop reordering, and saving a route.

State changes are pure functions from state to state. Identifiers made by
`crypto.randomUUID()` and timestamps from `Date.now()` are parameters. An
operation that needs a fresh identifier says so in its precondition
(`FreshId`).

Three behaviours of the code are easy to miss, and the model follows the
code in each:

- `registerStudent` does not check whether the route is active. Only the
  form does, which `RegistrationForm.EngineAdmitsInactiveRoute` shows.
- Ticket numbers are not monotone over time. Deleting the holder of the
  highest ticket makes that number the next one issued, which
  `AppContext.TicketReusedAfterDelete` shows.
- Every route-changing operation keeps the orders dense only under the
  conditions the lemmas name. `addRoute` under an existing name overwrites
  that route and leaves a gap (`Routes.AddDuplicateLeavesGap`), and
  `handleSave` can duplicate an order or bring a deleted route back (see
  Findings).

## Model

| member | source | states |
|---|---|---|
| Types.FacultiesEnumerated | src/types/index.ts:24-35 | There are exactly eleven faculties, every faculty is listed, and their codes are pairwise distinct. |
| Text.BlankIffAllWhitespace | src/components/RegistrationForm.tsx:78 | `!s.trim()` holds exactly when every character of `s` is ECMAScript white space. |
| Text.TrimStart | src/components/RegistrationForm.tsx:43 | The result is a suffix of the input. What was removed is all white space. The result does not start with white space. |
| Text.TrimEnd | src/components/RegistrationForm.tsx:43 | The result is a prefix of the input. What was removed is all white space. The result does not end with white space. |
| Text.LowerIdempotent | src/components/RegistrationDisplay.tsx:24-29 | Lower-casing a lowered string changes nothing. |
| Text.IncludesIffOccurs | src/components/RegistrationDisplay.tsx:27-29 | `includes` holds exactly when the needle occurs at some position of the haystack. |
| Text.SlugHasNoWhitespace | src/context/AppContext.tsx:213 | A route id built from a name contains no white space. |
| Text.SlugOfSingleWord | src/context/AppContext.tsx:213 | The id of a name without white space is the lowered name. |
| Text.SlugIsLower | src/context/AppContext.tsx:213 | A route id is already lower case. |
| Text.SlugIdempotent | src/context/AppContext.tsx:213 | Building the id of an id gives the id back. |
| Text.TrimStartOfRun | src/context/AppContext.tsx:213 | Removing a leading run of white space from `w + b` leaves exactly `b` when `b` does not start with white space. |
| Text.SlugOfWordPrefix | src/context/AppContext.tsx:213 | A word without white space is lowered character by character in front of whatever follows it. |
| Text.SlugOfSpaceRun | src/context/AppContext.tsx:213 | A maximal run of white space of any length becomes exactly one hyphen. |
| Text.SlugJoinsWordsWithOneHyphen | src/context/AppContext.tsx:213 | Two words separated by a run of white space slug to the lowered first word, one hyphen, and the slug of the rest. |
| Text.SlugOfPuentePiedra | src/context/AppContext.tsx:22-24 | The seed route named "Puente Piedra" has the id "puente-piedra" that `addRoute` would give it. |
| Text.ParseIntRoundTrip | src/components/AdminPanel/RouteConfiguration.tsx:142 | Parsing the decimal text of a natural number gives the number back. The empty input parses to 0. |
| Seqs.Filter | src/context/AppContext.tsx:177 | `filter` keeps exactly the elements that pass, each taken from the input, and never more often than in the input. |
| Seqs.FilterKeepsCount | src/context/AppContext.tsx:177 | Every copy of a passing element is kept: it occurs in the result as often as in the input. |
| Seqs.FilterTwice | src/components/AdminPanel/StudentManagement.tsx:40-51 | Two filters in a row equal one filter by both tests. |
| Seqs.IndexOf | src/components/AdminPanel/RouteConfiguration.tsx:116-117 | `indexOf` returns -1 exactly when the element is absent. Otherwise it returns the first position holding it. |
| Seqs.ArrayMove | src/components/AdminPanel/RouteConfiguration.tsx:120 | `arrayMove` is a permutation of the list, with the moved element at the target position. |
| Seqs.ArrayMoveShape | src/components/AdminPanel/RouteConfiguration.tsx:120 | The elements between the origin and the target shift by one, and the rest stay where they are. |
| Seqs.ArrayMoveDistinct | src/components/AdminPanel/RouteConfiguration.tsx:120 | Moving an element in a list without repeats gives a list without repeats. |
| Seqs.SortBy | src/components/RegistrationDisplay.tsx:33 | The numeric-comparator sort returns a permutation of its input, in ascending key order. |
| Seqs.SortByStable | src/components/RegistrationDisplay.tsx:33 | The sort is stable: for every key, the elements holding it come out in the order they went in. |
| Routes.DenseOrdersAreRange | src/context/AppContext.tsx:297-300 | In a dense map the orders are exactly 0..n-1. Pigeonhole: distinct orders below n cover every value below n. |
| Routes.SortedKeys | src/context/AppContext.tsx:297-300 | `getSortedRoutes` on a dense map has one entry per route, and the entry at position i has order i. |
| Routes.SortedKeysListing | src/context/AppContext.tsx:297-300 | The listing is strictly ascending by order, names every route, and names each route once. |
| Routes.SortedKeysUnique | src/context/AppContext.tsx:297-300 | Any list of the routes whose i-th entry has order i is the sorted listing. |
| Routes.ActiveSortedKeys | src/components/RegistrationForm.tsx:123-124 | The active routes, each exactly when it is active, in ascending order. |
| Routes.MaxOrder | src/context/AppContext.tsx:214 | `Math.max` over the orders is one of the orders and at least every order. |
| Routes.Add | src/context/AppContext.tsx:212-227 | `addRoute` stores the route under its name. The id is the slug of the name and the order is above every other route's. Other routes are untouched. |
| Routes.AddFreshKeepsDense | src/context/AppContext.tsx:212-227 | A route under a new name takes order n, and the orders stay dense. |
| Routes.AddDuplicateLeavesGap | src/context/AppContext.tsx:212-227 | Adding under an existing name overwrites that route and moves it past the end, which leaves a gap. |
| Routes.Merge | src/context/AppContext.tsx:207 | The spread merge takes each field from the patch when the patch has it, and from the route otherwise. |
| Routes.MergeIdempotent | src/context/AppContext.tsx:207 | Saving the same patch twice gives the same route as saving it once. |
| Routes.Update | src/context/AppContext.tsx:202-210 | `updateRouteConfig` changes only the named route and merges the patch into it. Every other route is unchanged. On a missing key it adds the route, spelled out by a complete patch. |
| Routes.UpdateKeepsDense | src/context/AppContext.tsx:202-210 | An update that does not set `order` keeps the orders dense. |
| Routes.RemoveCompact | src/context/AppContext.tsx:234-241 | Deletion removes exactly the route's key. Orders above the removed one drop by one, and the rest stay. |
| Routes.RemoveKeepsDense | src/context/AppContext.tsx:229-247 | Deletion keeps the orders dense and keeps the relative order of the remaining routes. |
| Routes.Reorder | src/context/AppContext.tsx:253-276 | `reorderRoutes` gives the moved route the target order, shifts the others between old and new position by one, and keeps every key. |
| Routes.ShiftedMonotone | src/context/AppContext.tsx:257-268 | Away from the moved route, the shift is strictly increasing. |
| Routes.ShiftedRange | src/context/AppContext.tsx:257-268 | With everything in 0..n-1, a shifted order stays in 0..n-1 and never equals the target. |
| Routes.ReorderKeepsDense | src/context/AppContext.tsx:253-276 | Moving a route to a position in 0..n-1 keeps the orders dense and keeps the relative order of the other routes. |
| Routes.ReorderInPlace | src/context/AppContext.tsx:253-276 | Moving a route to its own order changes nothing. |
| AppContext.InitialStateShape | src/context/AppContext.tsx:12-66 | The seed has the five routes Norte, Puente Piedra, Este, Ate and Sur, with orders 0..4. All are active with capacity 50, and there are no students and no clarifications. |
| AppContext.DefaultRoutesDense | src/context/AppContext.tsx:12-58 | The seed's route orders are dense. |
| AppContext.InitialStateValid | src/context/AppContext.tsx:60-66 | The seed satisfies the invariant. |
| AppContext.RouteStudents | src/context/AppContext.tsx:121 | A route's students are exactly the students whose route it is. |
| AppContext.MaxTicket | src/context/AppContext.tsx:285 | `Math.max` over the tickets is one of them and at least all of them. |
| AppContext.NextTicket | src/context/AppContext.tsx:282-287 | The next ticket is 1 on an empty route. Otherwise it is one above a ticket held on the route, and it is above every ticket on the route. |
| AppContext.NextTicketPositive | src/context/AppContext.tsx:282-287 | In a valid state the next ticket is at least 1. |
| AppContext.RegisterStudent | src/context/AppContext.tsx:116-141 | Registration is refused exactly when the code is registered, the code is in the clarification list, or the route is full. A refusal leaves the state alone. Success appends one pending student whose ticket is `NextTicket` of the route, above every ticket already on it. |
| AppContext.RegisterStudentManually | src/context/AppContext.tsx:143-163 | Manual registration succeeds exactly when the code is unused, and the capacity is not checked. Success appends the student. |
| AppContext.UpdateStudent | src/context/AppContext.tsx:165-172 | Every student with the id is replaced, and every other position is untouched. |
| AppContext.UpdateUnknownIsNoop | src/context/AppContext.tsx:165-172 | Updating with an id nobody holds changes nothing. |
| AppContext.DeleteStudent | src/context/AppContext.tsx:174-179 | Exactly the students with the id are removed. Everyone else stays. |
| AppContext.DeleteUnknownIsNoop | src/context/AppContext.tsx:174-179 | Deleting an id nobody holds changes nothing. |
| AppContext.SetStudentStatus | src/context/AppContext.tsx:181-188 | Exactly the students with the id get the new status, and nothing else changes. |
| AppContext.SetStatusUnknownIsNoop | src/context/AppContext.tsx:181-188 | Setting the status of an unknown id changes nothing. |
| AppContext.AddClarification | src/context/AppContext.tsx:302-313 | The new clarification is put in front, and the old list follows unchanged. |
| AppContext.DeleteClarification | src/context/AppContext.tsx:315-320 | Exactly the clarifications with the id are removed. |
| AppContext.DeleteClarificationUnknownIsNoop | src/context/AppContext.tsx:315-320 | Removing an unknown clarification id changes nothing. |
| AppContext.ClarificationBlocks | src/context/AppContext.tsx:117-119 | Once a code is in the clarification list, registration with that code is refused. |
| AppContext.CanDeleteRoute | src/context/AppContext.tsx:249-251 | A route may be deleted exactly when no student is on it, that is, when its count is 0. |
| AppContext.DeleteRoute | src/context/AppContext.tsx:229-247 | A route with students is kept and the routes are unchanged. Otherwise exactly that key is removed, every order above it drops by one, the other fields of each route stay, and students, clarifications and session are untouched. |
| AppContext.AddRoute | src/context/AppContext.tsx:212-227 | The keys become the old keys plus the name. The other routes are unchanged. The new route has the slug of its name as id, the form's fields, and an order above every existing order, which is `|routes|` for a new name on a dense map. Nothing outside the route map changes. |
| AppContext.UpdateRouteConfig | src/context/AppContext.tsx:202-210 | The named route becomes the merge of the patch over it, or is added from a complete patch when missing. Every other route is unchanged, and nothing outside the route map changes. |
| AppContext.ReorderRoutes | src/context/AppContext.tsx:253-276 | The keys are kept. The moved route has the target order. Every route keeps every field but its order, and nothing outside the route map changes. |
| AppContext.AppendKeepsUnique | src/context/AppContext.tsx:135-138 | Appending a student with a fresh id, an unused code, and a ticket above the route's tickets keeps ids, codes and per-route tickets unique. |
| AppContext.AdmitKeepsValid | src/context/AppContext.tsx:126-138 | Admitting a student with a fresh id and an unused code onto an existing route keeps the invariant. |
| AppContext.RegisterKeepsValid | src/context/AppContext.tsx:116-141 | Self-service registration keeps the invariant. |
| AppContext.RegisterManuallyKeepsValid | src/context/AppContext.tsx:143-163 | Manual registration keeps the invariant, even past capacity. |
| AppContext.RegisterRespectsCapacity | src/context/AppContext.tsx:121-124 | After a self-service registration the route holds one more student and is still within capacity. |
| AppContext.ManualBypassesCapacity | src/context/AppContext.tsx:143-163 | On a full route self-service is refused, but manual registration succeeds and goes past capacity. |
| AppContext.UpdateKeepsValid | src/context/AppContext.tsx:165-172 | Replacing a student with a record that keeps id, route and ticket and uses no other student's code keeps the invariant. |
| AppContext.DeleteStudentKeepsValid | src/context/AppContext.tsx:174-179 | Deleting a student keeps the invariant. |
| AppContext.SetStatusKeepsValid | src/context/AppContext.tsx:181-188 | Changing a status keeps the invariant. |
| AppContext.AddRouteKeepsValid | src/context/AppContext.tsx:212-227 | Adding a route under a new name keeps the invariant. |
| AppContext.UpdateRouteConfigKeepsValid | src/context/AppContext.tsx:202-210 | A route update that leaves `order` alone keeps the invariant, even one that renames the route. |
| AppContext.DeleteRouteKeepsValid | src/context/AppContext.tsx:229-247 | Deleting a route keeps the invariant, because only routes without students go. |
| AppContext.ReorderKeepsValid | src/context/AppContext.tsx:253-276 | Reordering to a position in range keeps the invariant. |
| AppContext.ClarificationsKeepValid | src/context/AppContext.tsx:302-320 | Adding or removing a clarification keeps the invariant. |
| AppContext.TicketReusedAfterDelete | src/context/AppContext.tsx:282-287 | Tickets 1 and 2 on a route, delete the holder of 2, and the next ticket is 2 again. |
| RegistrationForm.ValidateCode | src/components/RegistrationForm.tsx:42-72 | A blank code gets no message. A code in the clarification list gets a warning, even if it is registered. A registered code gets an error. Otherwise the code gets success, and only success returns true. |
| RegistrationForm.ValidateCodeAgreesWithEngine | src/components/RegistrationForm.tsx:42-72 | On a route with room, a non-blank code passes the check exactly when the engine would register it. |
| RegistrationForm.PaddedCodePassesCheck | src/components/RegistrationForm.tsx:48-57 | Codes are compared untrimmed, so a registered code with leading white space passes the check. |
| RegistrationForm.HandleSubmit | src/components/RegistrationForm.tsx:74-121 | The first failing check, in the order `handleSubmit` runs them, decides the refusal (missing field, no route, blocked code, inactive route, full route, rejected by the engine). A refusal leaves state and form as they were. A refusal also keeps the message under the code field; success appends the student, clears the form and removes that message. |
| RegistrationForm.FormIsEngineplusActiveCheck | src/components/RegistrationForm.tsx:93-105 | On an existing route the form registers exactly when the fields are filled, the route is active, and the engine admits the request. |
| RegistrationForm.EngineAdmitsInactiveRoute | src/components/RegistrationForm.tsx:93-97 | The engine admits a request on an inactive route, and only the form refuses it. |
| RegistrationForm.SubmitKeepsValid | src/components/RegistrationForm.tsx:105 | A submission keeps the invariant. |
| RegistrationForm.RouteOptions | src/components/RegistrationForm.tsx:252-267 | The options are the active routes in listing order, and an option is disabled exactly when its route is full. |
| RegistrationForm.FullRouteRefused | src/components/RegistrationForm.tsx:99-103 | A full route can register no one, through the form or through the engine. |
| EditStudentModal.InitialForm | src/components/AdminPanel/EditStudentModal.tsx:17-23 | The dialog opens with the student's five editable fields. |
| EditStudentModal.Submit | src/components/AdminPanel/EditStudentModal.tsx:31-58 | A blank field refuses. A changed code that is already registered refuses. Otherwise the edited record replaces the student. A refusal leaves the state alone. |
| EditStudentModal.EditPreservesIdentity | src/components/AdminPanel/EditStudentModal.tsx:48-55 | An accepted edit changes the five fields and keeps id, route, ticket, status and timestamp. Other students are untouched. |
| EditStudentModal.OwnCodeAccepted | src/components/AdminPanel/EditStudentModal.tsx:42 | Keeping the student's own code is never refused as taken. |
| EditStudentModal.MissingPhoneBlocksSave | src/components/AdminPanel/EditStudentModal.tsx:22-39 | A student stored without a phone cannot be saved unchanged. |
| EditStudentModal.EditKeepsValid | src/components/AdminPanel/EditStudentModal.tsx:41-55 | An accepted edit keeps the invariant. In particular, codes stay unique. |
| RegistrationDisplay.ByRoute | src/components/RegistrationDisplay.tsx:19-21 | With a route selected, exactly that route's students remain. Otherwise everyone remains. |
| RegistrationDisplay.BySearch | src/components/RegistrationDisplay.tsx:23-31 | With a term, exactly the students whose lowered name, last name or code includes the lowered term remain. |
| RegistrationDisplay.Listed | src/components/RegistrationDisplay.tsx:16-35 | The list holds every student who passes both filters and nothing else, in ascending ticket order. |
| RegistrationDisplay.FiltersAreShown | src/components/RegistrationDisplay.tsx:16-31 | The route filter followed by the search is one filter by "shown", so the passing students keep their order in the state. |
| RegistrationDisplay.ListedKeepsTieOrder | src/components/RegistrationDisplay.tsx:16-35 | Students with the same ticket, which happens across routes when no route is selected, are listed in the order the state holds them. |
| RegistrationDisplay.NoFilterListsEveryone | src/components/RegistrationDisplay.tsx:16-35 | With no route and no term, every student is listed. |
| RegistrationDisplay.Refresh | src/components/RegistrationDisplay.tsx:16-37 | Recomputing the list puts the page back to 1. |
| RegistrationDisplay.TotalPages | src/components/RegistrationDisplay.tsx:52 | `Math.ceil(n / 10)` is the fewest pages of ten that hold n items. |
| RegistrationDisplay.RefreshPageInRange | src/components/RegistrationDisplay.tsx:36-52 | After a refresh the current page exists whenever the list is not empty. |
| RegistrationDisplay.PageItems | src/components/RegistrationDisplay.tsx:53-54 | A page holds at most ten items: those at positions (p-1)*10 onward, cut at the end of the list. |
| RegistrationDisplay.PagesConcatenate | src/components/RegistrationDisplay.tsx:52-54 | The pages, read in order, give back the whole list. |
| RegistrationDisplay.NavigationStaysInRange | src/components/RegistrationDisplay.tsx:166-220 | Any sequence of clicks on the previous, next and numbered buttons keeps the page in 1..total. |
| StudentManagement.OnTab | src/components/AdminPanel/StudentManagement.tsx:40-41 | Exactly the tab route's students remain. |
| StudentManagement.SearchTab | src/components/AdminPanel/StudentManagement.tsx:42-51 | With a term, exactly the students whose name, last name, code or phone includes it remain. |
| StudentManagement.ManagedList | src/components/AdminPanel/StudentManagement.tsx:40-52 | The table holds every student of the route who matches the term and nothing else, in ascending ticket order. |
| StudentManagement.ManagedKeepsTieOrder | src/components/AdminPanel/StudentManagement.tsx:40-52 | Students of the table with the same ticket appear in the order the state holds them. |
| StudentManagement.AdminSeesWhatPublicSees | src/components/AdminPanel/StudentManagement.tsx:42-51 | Everyone the public list shows for a route and term is in the administrator's table for them. |
| StudentManagement.ConfirmSingleDelete | src/components/AdminPanel/StudentManagement.tsx:68-73 | Without a pending id nothing happens. Otherwise exactly the students with that id go, and the pending id is cleared. |
| StudentManagement.ConfirmIdempotent | src/components/AdminPanel/StudentManagement.tsx:68-73 | Confirming a second time does nothing more. |
| StudentManagement.DeleteAllIsFilter | src/components/AdminPanel/StudentManagement.tsx:79-81 | The queued deletions remove exactly the students whose id is among the victims' ids, keep the order of the rest, and leave routes and clarifications alone. |
| StudentManagement.BulkDeleteExact | src/components/AdminPanel/StudentManagement.tsx:79-81 | Bulk deletion removes exactly the students shown in the table and keeps everyone else. |
| StudentManagement.ManualSubmit | src/components/AdminPanel/StudentManagement.tsx:99-127 | A blank field or a registered code refuses, and leaves state, form and dialog as they were. Success registers the student on the tab's route, clears the form and closes the dialog. |
| StudentManagement.ManualSubmitKeepsValid | src/components/AdminPanel/StudentManagement.tsx:109-113 | Manual submission keeps the invariant. |
| StudentManagement.StatusOf | src/components/AdminPanel/StudentManagement.tsx:360-372 | Neither button sets `pending`. |
| StudentManagement.NoPathBackToPending | src/components/AdminPanel/StudentManagement.tsx:54-56 | Whatever buttons are pressed, a student who was not pending stays not pending, and a pressed student ends not pending. |
| RouteConfiguration.ApplyMovesPlaces | src/components/AdminPanel/RouteConfiguration.tsx:121-123 | Calling `reorderRoutes(name, index)` over a list of all routes leaves every route at its index in the list, and the orders dense. |
| RouteConfiguration.DragEnd | src/components/AdminPanel/RouteConfiguration.tsx:112-126 | Without a target, when dropped on itself, or when a route is not listed, nothing changes. Otherwise the routes then list in exactly the `arrayMove`d order, and the orders stay dense. |
| RouteConfiguration.DragPutsRouteAtTarget | src/components/AdminPanel/RouteConfiguration.tsx:116-123 | The dragged route ends at the target's former position. |
| RouteConfiguration.DragKeepsValid | src/components/AdminPanel/RouteConfiguration.tsx:112-126 | A drag keeps the invariant. |
| RouteConfiguration.DragSwapsTwoRoutes | src/components/AdminPanel/RouteConfiguration.tsx:112-126 | With two routes A (order 0) and B (order 1), dropping A on B runs `reorderRoutes("B", 0)` and then `reorderRoutes("A", 1)`: the orders swap and the state stays valid. |
| RouteConfiguration.NumberInputReadsBack | src/components/AdminPanel/RouteConfiguration.tsx:142 | A typed number is stored as itself. |
| RouteConfiguration.NonNumericInputIsZero | src/components/AdminPanel/RouteConfiguration.tsx:155 | A number input that does not start with a digit or sign is stored as 0. |
| RouteConfiguration.AddRouteSubmit | src/components/AdminPanel/RouteConfiguration.tsx:169-183 | A blank name or subtitle changes nothing. Otherwise the route is added, and the form closes and returns to the defaults (capacity 50, active, colour #3B82F6). |
| RouteConfiguration.AddedRouteListedLast | src/components/AdminPanel/RouteConfiguration.tsx:169-183 | A route added under a new name is listed last, with the slug of its name as id. |
| RouteConfiguration.AddRouteSubmitKeepsValid | src/components/AdminPanel/RouteConfiguration.tsx:174 | Adding a route under a new name keeps the invariant. |
| RouteConfiguration.SaveAsWritten | src/components/AdminPanel/RouteConfiguration.tsx:161-167 | Saving writes the whole edited record, including its `order`, under the tab's key, and adds that key if the route was deleted. Other routes are untouched. |
| RouteConfiguration.SaveAfterDragBreaksOrders | src/components/AdminPanel/RouteConfiguration.tsx:161-167 | Edit, then drag, then save gives two routes the same order. The corrected save keeps the state valid on the same input. |
| RouteConfiguration.Save | src/components/AdminPanel/RouteConfiguration.tsx:161-167 | The corrected save writes the edited fields and keeps the route's current order. On a tab whose route no longer exists it changes nothing. |
| RouteConfiguration.SaveKeepsValid | src/components/AdminPanel/RouteConfiguration.tsx:161-167 | The corrected save keeps the invariant on any tab. A renamed route keeps its key, so students still refer to it. |
| RouteConfiguration.SaveAgreesWhenFresh | src/components/AdminPanel/RouteConfiguration.tsx:161-167 | When the form's order is the current one, both saves agree. |
| RouteConfiguration.ConfirmDelete | src/components/AdminPanel/RouteConfiguration.tsx:193-199 | A route with students is kept. Otherwise exactly its key is removed. |
| RouteConfiguration.SaveAfterDeleteRecreatesRoute | src/components/AdminPanel/RouteConfiguration.tsx:193-199 | After deleting Norte on a fresh installation the tab still names Norte. Saving as written brings Norte back with an order Puente Piedra already holds. The corrected save changes nothing and keeps the state valid. |
| RouteConfiguration.ConfirmDeleteKeepsValid | src/components/AdminPanel/RouteConfiguration.tsx:193-199 | Confirming a deletion keeps the invariant, and a route with students stays. |

## Left out

- Persistence to `localStorage` (AppContext.tsx:95-110) is left out: I/O. The merge of a saved state over the seed and the `clarifications || []` default are not modelled. A corrupt snapshot makes `JSON.parse` throw, and the `useState` initializer (AppContext.tsx:94-105) has no try/catch around it.
- `login` and `logout` (AppContext.tsx:190-200) are left out. The password comparison is one string equality and guards no rule of the core.
- `setCurrentRoute` (AppContext.tsx:278-280) only stores the map selection, and `getRouteColor` (AppContext.tsx:112-114) only picks a display colour. Neither takes part in any rule.
- `crypto.randomUUID()` and `Date.now()` are parameters. Fresh ids are a precondition (`FreshId`), not a randomness argument.
- `toLowerCase` is modelled for ASCII letters only. Other letters, and multi-character case mappings, are left as they are.
- Routes.SortedKeys: `getSortedRoutes` is modelled only for maps with dense orders. Not every reachable map is dense: `addRoute` under an existing name leaves a gap (`Routes.AddDuplicateLeavesGap`), and the route editor's save as written can give two routes one order (`RouteConfiguration.SaveAfterDragBreaksOrders`). The listing of such maps, and the order of ties (insertion order), are not modelled, because orders that are not 0..n-1 have no single position per route to state.
- RouteConfiguration.DragEnd: requires dense orders, like `Routes.SortedKeys`, so a drag on a map with a gap or a repeated order is not covered.
- RegistrationForm.RouteOptions: requires dense orders, like `Routes.SortedKeys`, so the drop-down of a map with a gap or a repeated order is not covered.
- Routes.Add: `addRoute` on an empty route map is not modelled. The map can become empty: `handleConfirmDelete` (RouteConfiguration.tsx:193-199) removes any route without students, so every seed route can be deleted, and `AppContext.DeleteRoute` reaches the empty map too. Then `Math.max()` of nothing is `-Infinity` and the new route's order is `-Infinity`, which is not an integer, so the model requires a route to exist (this also holds for `AppContext.AddRoute`, `RouteConfiguration.AddRouteSubmit` and `RouteConfiguration.AddedRouteListedLast`).
- Operations that read a field of `state.routes[route]` require the route to exist: `RegisterStudent` through `RouteLookupSafe` (`.capacity`), `ReorderRoutes` (`.order`) and `DeleteRoute` (`deletedRoute.order`, AppContext.tsx:234-235). Each throws on a missing key. The registration form only offers existing routes. The route screen can keep a deleted route as its tab (next lines).
- RouteConfiguration.ConfirmDelete: requires the tab's route to exist. After a deletion the screen selects `Object.keys(state.routes)[0]` of the state before the deletion, which can be the deleted route, and a second deletion of that tab throws at `deletedRoute.order`. The selected tab and the editing form are parameters of the model rather than screen state. What a save does on that stale tab is modelled (`RouteConfiguration.SaveAfterDeleteRecreatesRoute`, Findings).
- Routes.Update: on a missing key the patch must be complete (`Routes.Complete`). Spreading a partial patch over `undefined` gives a route with undefined fields, which `RouteConfig` cannot hold. The only caller that reaches a missing key, `handleSave`, passes a whole record. This also holds for `AppContext.UpdateRouteConfig`.
- RouteConfiguration.DragEnd: the drag is modelled from the moment it is dropped. Mouse and keyboard input, and drops whose ids are not route names, are left out.
- Text.ParseIntRoundTrip: covers natural numbers only. `parseInt` of a signed number is covered by `Text.ParseDigits`, and exponents and hexadecimal prefixes are not modelled.
- The faculty drop-downs and the PDF export (StudentManagement.tsx:88-91) are presentation. Only the list the export receives, `ManagedList`, is modelled.
- The confirmation dialogs and `handleDeleteRoute` (RouteConfiguration.tsx:185-191) only open or close dialogs. The deletion itself is `ConfirmDelete`.
- RegistrationDisplay.Refresh: `setFilteredStudents` and `setCurrentPage` are modelled as one step, because React applies them together.

## Findings

| source | as written | input that shows it | evidently intended | confidence | as-written member | corrected member |
|---|---|---|---|---|---|---|
| src/components/AdminPanel/RouteConfiguration.tsx:161-167 | `handleSave` writes the edited copy of the route whole, including the `order` copied when the first field was edited | routes A (order 0) and B (order 1); edit A's capacity to 40; drop A on B, which runs `reorderRoutes("B", 0)` and then `reorderRoutes("A", 1)`; save: A and B both have order 0 | save the edited fields and keep the route's current order | not executed; high | RouteConfiguration.SaveAsWritten | RouteConfiguration.Save |
| src/components/AdminPanel/RouteConfiguration.tsx:193-199 | `handleConfirmDelete` selects the first key of the routes read before the deletion and leaves the editing form as it was; `handleSave` then calls `updateRouteConfig` on that key | fresh installation; open Norte (the first route); delete it; save: Norte is back with order 0, which Puente Piedra also holds | a deleted route stays deleted, and a save only writes a route that exists | not executed; high | RouteConfiguration.SaveAsWritten | RouteConfiguration.Save |

=== FILE: app_context.dfy ===
/**
 The registration engine: the seed state and every state transition the
 application context offers (registering students, editing, deleting and
 setting their status, adding and removing clarifications, and the route
 operations), each as a pure function from one state to the next. Fresh ids
 and timestamps, which the application draws from `crypto.randomUUID()` and
 `Date.now()`, are parameters.
 */
module AppContext {
  import opened Types
  import Seqs
  import Routes
  import Text

  // ---------------------------------------------------------------------------
  // Seed

  const DefaultRoutes: Routes.RouteMap := map[
    "Norte" := RouteConfig("norte", "Norte", "Plaza Norte - UNI", true, 50, 0, "#3B82F6"),
    "Puente Piedra" := RouteConfig("puente-piedra", "Puente Piedra", "Plaza Puente Piedra - UNI", true, 50, 1, "#22C55E"),
    "Este" := RouteConfig("este", "Este", "Metro Santa Anita - UNI", true, 50, 2, "#F59E0B"),
    "Ate" := RouteConfig("ate", "Ate", "Mall de Ate - UNI", true, 50, 3, "#EF4444"),
    "Sur" := RouteConfig("sur", "Sur", "Plaza Sur - UNI", true, 50, 4, "#8B5CF6")
  ]

  /** The state of a fresh installation. */
  const InitialState: AppState := AppState([], DefaultRoutes, [], false, None)

  // ---------------------------------------------------------------------------
  // Reads

  /** The test `student.route === route`. */
  function OnRoute(route: string): Student -> bool {
    (s: Student) => s.route == route
  }

  /** `students.filter(s => s.route === route)`. */
  function RouteStudents(students: seq<Student>, route: string): (r: seq<Student>)
    ensures forall i :: 0 <= i < |r| ==> r[i].route == route && r[i] in students
    ensures forall i :: 0 <= i < |students| && students[i].route == route ==> students[i] in r
  {
    Seqs.Filter(students, OnRoute(route))
  }

  /** The number of students registered on a route. */
  function CountOnRoute(students: seq<Student>, route: string): nat {
    |RouteStudents(students, route)|
  }

  /** `isCodeRegistered(code)`: exact, case-sensitive match against every student. */
  predicate IsCodeRegistered(students: seq<Student>, code: string) {
    exists i :: 0 <= i < |students| && students[i].code == code
  }

  /** `isCodeInClarificationList(code)`: exact match against every clarification. */
  predicate IsCodeInClarificationList(clarifications: seq<Clarification>, code: string) {
    exists i :: 0 <= i < |clarifications| && clarifications[i].code == code
  }

  function MaxTicket(ss: seq<Student>): (m: int)
    requires |ss| > 0
    ensures forall i :: 0 <= i < |ss| ==> ss[i].ticketNumber <= m
    ensures exists i :: 0 <= i < |ss| && ss[i].ticketNumber == m
  {
    if |ss| == 1 then ss[0].ticketNumber
    else
      var rest := MaxTicket(ss[1..]);
      assert forall i :: 1 <= i < |ss| ==> ss[i] == ss[1..][i - 1];
      if ss[0].ticketNumber > rest then ss[0].ticketNumber else rest
  }

  /** `getNextTicketNumber(route)`: one more than the largest ticket on the
      route, or 1 when the route has no students. It is therefore larger than
      every ticket present on the route, and a deleted highest ticket is issued
      again. */
  function NextTicket(students: seq<Student>, route: string): (t: int)
    ensures forall i :: 0 <= i < |students| && students[i].route == route ==> students[i].ticketNumber < t
    ensures CountOnRoute(students, route) == 0 ==> t == 1
    ensures CountOnRoute(students, route) > 0 ==>
              exists i :: 0 <= i < |students| && students[i].route == route && students[i].ticketNumber == t - 1
  {
    var rs := RouteStudents(students, route);
    if |rs| == 0 then
      1
    else
      var m := MaxTicket(rs);
      assert forall i :: 0 <= i < |students| && students[i].route == route ==> students[i].ticketNumber <= m by {
        forall i | 0 <= i < |students| && students[i].route == route ensures students[i].ticketNumber <= m {
          assert students[i] in rs;
        }
      }
      var j :| 0 <= j < |rs| && rs[j].ticketNumber == m;
      assert rs[j] in students;
      m + 1
  }

  // ---------------------------------------------------------------------------
  // Registration

  /** The record a registration creates: the caller's fields, a fresh id, the
      given ticket, status `pending` and the current time. */
  function NewStudent(data: StudentData, id: string, ticket: int, now: int): Student {
    Student(id, data.name, data.lastName, data.code, data.faculty, data.route, ticket, Pending, now, data.phone)
  }

  /** No student holds `id` (what `crypto.randomUUID()` is relied on for). */
  predicate FreshId(students: seq<Student>, id: string) {
    forall i :: 0 <= i < |students| ==> students[i].id != id
  }

  /** The state after one student is admitted: one pending student on the
      requested route, holding a ticket above every ticket of that route, is
      added at the end; the students before it, the routes and the
      clarifications are untouched. */
  function Admit(st: AppState, data: StudentData, id: string, now: int): (r: AppState)
    ensures |r.students| == |st.students| + 1 && r.students[..|st.students|] == st.students
    ensures var s := r.students[|st.students|];
            && s.id == id && s.code == data.code && s.route == data.route
            && s.status == Pending && s.timestamp == now
            && forall i :: 0 <= i < |st.students| && st.students[i].route == data.route ==>
                 st.students[i].ticketNumber < s.ticketNumber
    ensures r.routes == st.routes && r.clarifications == st.clarifications
    ensures r.isAdmin == st.isAdmin && r.currentRoute == st.currentRoute
  {
    st.(students := st.students + [NewStudent(data, id, NextTicket(st.students, data.route), now)])
  }

  /** The outcome of a registration call: the next state and the created
      student, if any. */
  datatype Registration = Registration(state: AppState, student: Option<Student>)

  /** `registerStudent` looks the route up only after the code checks have passed. */
  predicate RouteLookupSafe(st: AppState, data: StudentData) {
    || IsCodeRegistered(st.students, data.code)
    || IsCodeInClarificationList(st.clarifications, data.code)
    || data.route in st.routes
  }

  /** `registerStudent(data)`, the self-service entry point. It yields no student
      and leaves the state alone when the code is already registered, when the
      code is in the clarification list, or when the route already holds as
      many students as its capacity; otherwise it appends exactly one pending
      student with the next ticket of the route. It never looks at `isActive`. */
  function RegisterStudent(st: AppState, data: StudentData, id: string, now: int): (r: Registration)
    requires RouteLookupSafe(st, data)
    ensures r.student.None? <==>
              || IsCodeRegistered(st.students, data.code)
              || IsCodeInClarificationList(st.clarifications, data.code)
              || CountOnRoute(st.students, data.route) >= st.routes[data.route].capacity
    ensures r.student.None? ==> r.state == st
    ensures r.student.Some? ==>
              && r.state == st.(students := st.students + [r.student.value])
              && r.student.value == NewStudent(data, id, r.student.value.ticketNumber, now)
              && r.student.value.status == Pending
              && r.student.value.ticketNumber == NextTicket(st.students, data.route)
              && (forall i :: 0 <= i < |st.students| && st.students[i].route == data.route ==>
                    st.students[i].ticketNumber < r.student.value.ticketNumber)
  {
    if IsCodeRegistered(st.students, data.code) || IsCodeInClarificationList(st.clarifications, data.code) then
      Registration(st, None)
    else if CountOnRoute(st.students, data.route) >= st.routes[data.route].capacity then
      Registration(st, None)
    else
      var s := NewStudent(data, id, NextTicket(st.students, data.route), now);
      Registration(Admit(st, data, id, now), Some(s))
  }

  /** `registerStudentManually(data)`, the administrator's entry point. Only a
      code already registered is refused; a full route, an inactive route or a
      code in the clarification list does not stop it. */
  function RegisterStudentManually(st: AppState, data: StudentData, id: string, now: int): (r: (AppState, bool))
    ensures r.1 <==> !IsCodeRegistered(st.students, data.code)
    ensures !r.1 ==> r.0 == st
    ensures r.1 ==> r.0 == st.(students := st.students + [NewStudent(data, id, NextTicket(st.students, data.route), now)])
  {
    if IsCodeRegistered(st.students, data.code) then (st, false)
    else (Admit(st, data, id, now), true)
  }

  // ---------------------------------------------------------------------------
  // Student edits

  /** `updateStudent(student)`: every entry with the same id is replaced by the
      given record; every other entry, and everything else in the state, stays. */
  function UpdateStudent(st: AppState, updated: Student): (r: AppState)
    ensures r.routes == st.routes && r.clarifications == st.clarifications
    ensures |r.students| == |st.students|
    ensures forall i :: 0 <= i < |st.students| && st.students[i].id == updated.id ==> r.students[i] == updated
    ensures forall i :: 0 <= i < |st.students| && st.students[i].id != updated.id ==> r.students[i] == st.students[i]
  {
    st.(students := seq(|st.students|, i requires 0 <= i < |st.students| =>
          if st.students[i].id == updated.id then updated else st.students[i]))
  }

  /** An update for an id nobody holds changes nothing. */
  lemma UpdateUnknownIsNoop(st: AppState, updated: Student)
    requires FreshId(st.students, updated.id)
    ensures UpdateStudent(st, updated) == st
  {
    assert UpdateStudent(st, updated).students == st.students;
  }

  /** The test `student.id !== id`. */
  function NotId(id: string): Student -> bool {
    (s: Student) => s.id != id
  }

  /** `deleteStudent(id)`: the entries with that id go, everything else stays in order. */
  function DeleteStudent(st: AppState, id: string): (r: AppState)
    ensures r.routes == st.routes && r.clarifications == st.clarifications
    ensures forall i :: 0 <= i < |r.students| ==> r.students[i].id != id && r.students[i] in st.students
    ensures forall i :: 0 <= i < |st.students| && st.students[i].id != id ==> st.students[i] in r.students
  {
    st.(students := Seqs.Filter(st.students, NotId(id)))
  }

  /** Deleting an id nobody holds changes nothing. */
  lemma DeleteUnknownIsNoop(st: AppState, id: string)
    requires FreshId(st.students, id)
    ensures DeleteStudent(st, id) == st
  {
    Seqs.FilterAll(st.students, NotId(id));
  }

  /** `setStudentStatus(id, status)`: any status may follow any other; only the
      entries with that id change, and only in their status. */
  function SetStudentStatus(st: AppState, id: string, status: Status): (r: AppState)
    ensures r.routes == st.routes && r.clarifications == st.clarifications
    ensures |r.students| == |st.students|
    ensures forall i :: 0 <= i < |st.students| && st.students[i].id == id ==> r.students[i] == st.students[i].(status := status)
    ensures forall i :: 0 <= i < |st.students| && st.students[i].id != id ==> r.students[i] == st.students[i]
  {
    st.(students := seq(|st.students|, i requires 0 <= i < |st.students| =>
          if st.students[i].id == id then st.students[i].(status := status) else st.students[i]))
  }

  /** Setting the status of an id nobody holds changes nothing. */
  lemma SetStatusUnknownIsNoop(st: AppState, id: string, status: Status)
    requires FreshId(st.students, id)
    ensures SetStudentStatus(st, id, status) == st
  {
    assert SetStudentStatus(st, id, status).students == st.students;
  }

  // ---------------------------------------------------------------------------
  // Clarifications

  /** `addClarification(data)`: one new entry, with a fresh id and the current
      time, goes in front of the list. */
  function AddClarification(st: AppState, data: ClarificationData, id: string, now: int): (r: AppState)
    ensures r.students == st.students && r.routes == st.routes
    ensures |r.clarifications| == |st.clarifications| + 1
    ensures r.clarifications[1..] == st.clarifications
    ensures r.clarifications[0] == Clarification(id, data.name, data.lastName, data.code, data.phone, data.reason, now)
  {
    st.(clarifications := [Clarification(id, data.name, data.lastName, data.code, data.phone, data.reason, now)] + st.clarifications)
  }

  /** The test `clarification.id !== id`. */
  function NotClarificationId(id: string): Clarification -> bool {
    (c: Clarification) => c.id != id
  }

  /** `deleteClarification(id)`: the entries with that id go, the rest stay. */
  function DeleteClarification(st: AppState, id: string): (r: AppState)
    ensures r.students == st.students && r.routes == st.routes
    ensures forall i :: 0 <= i < |r.clarifications| ==> r.clarifications[i].id != id && r.clarifications[i] in st.clarifications
    ensures forall i :: 0 <= i < |st.clarifications| && st.clarifications[i].id != id ==> st.clarifications[i] in r.clarifications
  {
    st.(clarifications := Seqs.Filter(st.clarifications, NotClarificationId(id)))
  }

  /** Deleting a clarification id nobody holds changes nothing. */
  lemma DeleteClarificationUnknownIsNoop(st: AppState, id: string)
    requires forall i :: 0 <= i < |st.clarifications| ==> st.clarifications[i].id != id
    ensures DeleteClarification(st, id) == st
  {
    Seqs.FilterAll(st.clarifications, NotClarificationId(id));
  }

  /** A clarification blocks self-service registration of its code at once,
      whatever the route's capacity. */
  lemma ClarificationBlocks(st: AppState, data: ClarificationData, id: string, now: int,
                            student: StudentData, sid: string, t: int)
    requires RouteLookupSafe(st, student)
    requires student.code == data.code
    ensures RegisterStudent(AddClarification(st, data, id, now), student, sid, t).student.None?
  {
    var st' := AddClarification(st, data, id, now);
    assert st'.clarifications[0].code == student.code;
  }

  // ---------------------------------------------------------------------------
  // Routes

  /** `canDeleteRoute(route)`: no student, whatever its status, is on the route. */
  function CanDeleteRoute(st: AppState, route: string): (r: bool)
    ensures r <==> forall i :: 0 <= i < |st.students| ==> st.students[i].route != route
    ensures r <==> CountOnRoute(st.students, route) == 0
  {
    var n := CountOnRoute(st.students, route);
    if n == 0 then
      true
    else
      assert RouteStudents(st.students, route)[0] in st.students;
      false
  }

  /** `deleteRoute(route)`: nothing happens while a student is on the route;
      otherwise the route goes and the orders above it close the gap.
      `deleteRoute` reads the route's order only once deletion is allowed.
      Students, clarifications and the session are never touched. */
  function DeleteRoute(st: AppState, route: string): (r: AppState)
    requires CanDeleteRoute(st, route) ==> route in st.routes
    ensures r.students == st.students && r.clarifications == st.clarifications
    ensures r.isAdmin == st.isAdmin && r.currentRoute == st.currentRoute
    ensures !CanDeleteRoute(st, route) ==> r.routes == st.routes
    ensures CanDeleteRoute(st, route) ==>
              && r.routes.Keys == st.routes.Keys - {route}
              && forall k :: k in r.routes ==>
                   && r.routes[k].(order := 0) == st.routes[k].(order := 0)
                   && r.routes[k].order == (if st.routes[k].order > st.routes[route].order
                                            then st.routes[k].order - 1 else st.routes[k].order)
  {
    if !CanDeleteRoute(st, route) then st
    else st.(routes := Routes.RemoveCompact(st.routes, route))
  }

  /** `addRoute(config)` on the state: the route named `nr.name` is written,
      with the slug of its name as id, after every existing order; no other
      route and nothing outside the route map changes. On a dense map a new
      name is placed at order `|routes|`. */
  ghost function AddRoute(st: AppState, nr: NewRoute): (r: AppState)
    requires |st.routes| > 0
    ensures r.students == st.students && r.clarifications == st.clarifications
    ensures r.isAdmin == st.isAdmin && r.currentRoute == st.currentRoute
    ensures r.routes.Keys == st.routes.Keys + {nr.name}
    ensures forall k :: k in st.routes && k != nr.name ==> r.routes[k] == st.routes[k]
    ensures var c := r.routes[nr.name];
            && c.id == Text.Slug(nr.name) && c.name == nr.name && c.subtitle == nr.subtitle
            && c.isActive == nr.isActive && c.capacity == nr.capacity && c.color == nr.color
            && forall k :: k in st.routes ==> st.routes[k].order < c.order
    ensures Routes.Dense(st.routes) && nr.name !in st.routes ==> r.routes[nr.name].order == |st.routes|
  {
    var r := st.(routes := Routes.Add(st.routes, nr));
    if Routes.Dense(st.routes) && nr.name !in st.routes then
      Routes.AddFreshKeepsDense(st.routes, nr);
      r
    else
      r
  }

  /** `updateRouteConfig(route, patch)` on the state: the named route takes
      every field the patch gives and keeps the others; a route that does not
      exist is created from a complete patch alone. Every other route and
      everything outside the route map stays. */
  function UpdateRouteConfig(st: AppState, route: string, p: Routes.RoutePatch): (r: AppState)
    requires route in st.routes || Routes.Complete(p)
    ensures r.students == st.students && r.clarifications == st.clarifications
    ensures r.isAdmin == st.isAdmin && r.currentRoute == st.currentRoute
    ensures r.routes.Keys == st.routes.Keys + {route}
    ensures forall k :: k in st.routes && k != route ==> r.routes[k] == st.routes[k]
    ensures route in st.routes ==> r.routes[route] == Routes.Merge(st.routes[route], p)
    ensures route !in st.routes ==> forall c :: Routes.Merge(c, p) == r.routes[route]
  {
    st.(routes := Routes.Update(st.routes, route, p))
  }

  /** `reorderRoutes(route, target)` on the state: the route lands at order
      `target`, only orders change, and nothing outside the route map does. */
  function ReorderRoutes(st: AppState, route: string, target: int): (r: AppState)
    requires route in st.routes
    ensures r.students == st.students && r.clarifications == st.clarifications
    ensures r.isAdmin == st.isAdmin && r.currentRoute == st.currentRoute
    ensures r.routes.Keys == st.routes.Keys
    ensures r.routes[route].order == target
    ensures forall k :: k in st.routes ==> r.routes[k].(order := 0) == st.routes[k].(order := 0)
  {
    st.(routes := Routes.Reorder(st.routes, route, target))
  }

  // ---------------------------------------------------------------------------
  // The invariant every reachable state keeps

  predicate DistinctIds(a: Student, b: Student) {
    a.id != b.id
  }

  predicate DistinctCodes(a: Student, b: Student) {
    a.code != b.code
  }

  /** Two students on the same route hold different tickets. */
  predicate DistinctTickets(a: Student, b: Student) {
    a.route == b.route ==> a.ticketNumber != b.ticketNumber
  }

  predicate TicketsUnique(students: seq<Student>) {
    Seqs.Pairwise(students, DistinctTickets)
  }

  predicate CodesUnique(students: seq<Student>) {
    Seqs.Pairwise(students, DistinctCodes)
  }

  predicate IdsUnique(students: seq<Student>) {
    Seqs.Pairwise(students, DistinctIds)
  }

  /** Route orders are dense; ids and codes are unique; tickets are positive
      and unique within each route; every student's route exists. */
  predicate Valid(st: AppState) {
    && Routes.Dense(st.routes)
    && IdsUnique(st.students)
    && CodesUnique(st.students)
    && TicketsUnique(st.students)
    && (forall i :: 0 <= i < |st.students| ==> st.students[i].ticketNumber >= 1)
    && (forall i :: 0 <= i < |st.students| ==> st.students[i].route in st.routes)
  }

  /** The seed: five active routes of capacity 50 in the order Norte, Puente
      Piedra, Este, Ate, Sur, and no students or clarifications. */
  lemma InitialStateShape()
    ensures InitialState.routes.Keys == {"Norte", "Puente Piedra", "Este", "Ate", "Sur"}
    ensures forall k :: k in InitialState.routes ==>
              InitialState.routes[k].isActive && InitialState.routes[k].capacity == 50
    ensures InitialState.routes["Norte"].order == 0 && InitialState.routes["Puente Piedra"].order == 1
    ensures InitialState.routes["Este"].order == 2 && InitialState.routes["Ate"].order == 3
    ensures InitialState.routes["Sur"].order == 4
    ensures InitialState.students == [] && InitialState.clarifications == []
  {
  }

  /** The seed state is valid. */
  lemma DefaultRoutesDense()
    ensures Routes.Dense(DefaultRoutes)
  {
    InitialStateShape();
    var keys := ["Norte", "Puente Piedra", "Este", "Ate", "Sur"];
    assert |DefaultRoutes| == 5;
    assert forall k :: k in DefaultRoutes ==>
             0 <= DefaultRoutes[k].order < 5 && keys[DefaultRoutes[k].order] == k;
  }

  lemma InitialStateValid()
    ensures Valid(InitialState)
  {
    DefaultRoutesDense();
  }

  /** The next ticket of a route is positive in a valid state. */
  lemma NextTicketPositive(st: AppState, route: string)
    requires Valid(st)
    ensures NextTicket(st.students, route) >= 1
  {
    if CountOnRoute(st.students, route) > 0 {
      var t := NextTicket(st.students, route);
      var i :| 0 <= i < |st.students| && st.students[i].route == route && st.students[i].ticketNumber == t - 1;
    }
  }

  /** Appending a student whose id and code nobody holds, and whose ticket is
      above every ticket of its route, keeps ids, codes and tickets unique. */
  lemma AppendKeepsUnique(ss: seq<Student>, s: Student)
    requires IdsUnique(ss) && CodesUnique(ss) && TicketsUnique(ss)
    requires FreshId(ss, s.id)
    requires !IsCodeRegistered(ss, s.code)
    requires forall i :: 0 <= i < |ss| && ss[i].route == s.route ==> ss[i].ticketNumber < s.ticketNumber
    ensures IdsUnique(ss + [s]) && CodesUnique(ss + [s]) && TicketsUnique(ss + [s])
  {
    assert forall i :: 0 <= i < |ss| ==> DistinctIds(ss[i], s);
    Seqs.AppendKeepsPairwise(ss, s, DistinctIds);
    assert forall i :: 0 <= i < |ss| ==> DistinctCodes(ss[i], s);
    Seqs.AppendKeepsPairwise(ss, s, DistinctCodes);
    assert forall i :: 0 <= i < |ss| ==> DistinctTickets(ss[i], s);
    Seqs.AppendKeepsPairwise(ss, s, DistinctTickets);
  }

  /** Appending a student with a positive ticket on an existing route keeps
      tickets positive and routes existing. */
  lemma AppendKeepsRoutesAndTickets(ss: seq<Student>, s: Student, routes: Routes.RouteMap)
    requires forall i :: 0 <= i < |ss| ==> ss[i].ticketNumber >= 1 && ss[i].route in routes
    requires s.ticketNumber >= 1 && s.route in routes
    ensures forall i :: 0 <= i < |ss + [s]| ==> (ss + [s])[i].ticketNumber >= 1 && (ss + [s])[i].route in routes
  {
  }

  /** Admitting a student whose code nobody holds, with a fresh id, on an
      existing route keeps the state valid. */
  lemma AdmitKeepsValid(st: AppState, data: StudentData, id: string, now: int)
    requires Valid(st)
    requires FreshId(st.students, id)
    requires !IsCodeRegistered(st.students, data.code)
    requires data.route in st.routes
    ensures Valid(Admit(st, data, id, now))
  {
    var ss := st.students;
    var s := NewStudent(data, id, NextTicket(ss, data.route), now);
    AppendKeepsUnique(ss, s);
    NextTicketPositive(st, data.route);
    AppendKeepsRoutesAndTickets(ss, s, st.routes);
  }

  /** Self-service registration keeps every invariant. */
  lemma RegisterKeepsValid(st: AppState, data: StudentData, id: string, now: int)
    requires Valid(st)
    requires FreshId(st.students, id)
    requires data.route in st.routes
    ensures Valid(RegisterStudent(st, data, id, now).state)
  {
    if RegisterStudent(st, data, id, now).student.Some? {
      AdmitKeepsValid(st, data, id, now);
    }
  }

  /** Manual registration onto an existing route keeps every invariant, even
      past capacity: code uniqueness is never overridden. */
  lemma RegisterManuallyKeepsValid(st: AppState, data: StudentData, id: string, now: int)
    requires Valid(st)
    requires FreshId(st.students, id)
    requires data.route in st.routes
    ensures Valid(RegisterStudentManually(st, data, id, now).0)
  {
    if !IsCodeRegistered(st.students, data.code) {
      AdmitKeepsValid(st, data, id, now);
    }
  }

  /** Self-service admission fills a route at most up to its capacity. */
  lemma RegisterRespectsCapacity(st: AppState, data: StudentData, id: string, now: int)
    requires data.route in st.routes
    requires RegisterStudent(st, data, id, now).student.Some?
    ensures CountOnRoute(RegisterStudent(st, data, id, now).state.students, data.route)
            == CountOnRoute(st.students, data.route) + 1
    ensures CountOnRoute(RegisterStudent(st, data, id, now).state.students, data.route)
            <= st.routes[data.route].capacity
  {
    var r := RegisterStudent(st, data, id, now);
    Seqs.FilterAppend(st.students, r.student.value, OnRoute(data.route));
  }

  /** Manual registration admits past capacity: on a full route with a code
      nobody holds it still appends one student. */
  lemma ManualBypassesCapacity(st: AppState, data: StudentData, id: string, now: int)
    requires data.route in st.routes
    requires CountOnRoute(st.students, data.route) >= st.routes[data.route].capacity
    requires !IsCodeRegistered(st.students, data.code)
    ensures RegisterStudent(st, data, id, now).student.None?
    ensures RegisterStudentManually(st, data, id, now).1
    ensures CountOnRoute(RegisterStudentManually(st, data, id, now).0.students, data.route)
            == CountOnRoute(st.students, data.route) + 1
  {
    var s := NewStudent(data, id, NextTicket(st.students, data.route), now);
    Seqs.FilterAppend(st.students, s, OnRoute(data.route));
  }

  /** Replacing a student by a record with the same id, route and ticket,
      whose code no other student holds, keeps every invariant. */
  lemma UpdateKeepsValid(st: AppState, k: nat, updated: Student)
    requires Valid(st)
    requires k < |st.students|
    requires updated.id == st.students[k].id
    requires updated.route == st.students[k].route
    requires updated.ticketNumber == st.students[k].ticketNumber
    requires forall i :: 0 <= i < |st.students| && i != k ==> st.students[i].code != updated.code
    ensures Valid(UpdateStudent(st, updated))
  {
    var r := UpdateStudent(st, updated);
    assert forall i :: 0 <= i < |st.students| && i != k ==> st.students[i].id != updated.id by {
      forall i | 0 <= i < |st.students| && i != k ensures st.students[i].id != updated.id {
        if i < k {
          assert DistinctIds(st.students[i], st.students[k]);
        } else {
          assert DistinctIds(st.students[k], st.students[i]);
        }
      }
    }
    assert r.students == st.students[k := updated];
  }

  /** Deleting a student keeps every invariant. */
  lemma DeleteStudentKeepsValid(st: AppState, id: string)
    requires Valid(st)
    ensures Valid(DeleteStudent(st, id))
  {
    Seqs.FilterKeepsPairwise(st.students, NotId(id), DistinctIds);
    Seqs.FilterKeepsPairwise(st.students, NotId(id), DistinctCodes);
    Seqs.FilterKeepsPairwise(st.students, NotId(id), DistinctTickets);
  }

  /** Setting a status keeps every invariant. */
  lemma SetStatusKeepsValid(st: AppState, id: string, status: Status)
    requires Valid(st)
    ensures Valid(SetStudentStatus(st, id, status))
  {
    var r := SetStudentStatus(st, id, status);
    assert forall i :: 0 <= i < |r.students| ==>
             r.students[i].id == st.students[i].id && r.students[i].code == st.students[i].code
             && r.students[i].route == st.students[i].route && r.students[i].ticketNumber == st.students[i].ticketNumber;
  }

  /** Adding a route under a new name keeps every invariant. */
  lemma AddRouteKeepsValid(st: AppState, nr: NewRoute)
    requires Valid(st)
    requires |st.routes| > 0
    requires nr.name !in st.routes
    ensures Valid(AddRoute(st, nr))
  {
    Routes.AddFreshKeepsDense(st.routes, nr);
  }

  /** A route update that leaves `order` alone keeps every invariant, even
      when it renames the route: the map key, which students refer to, stays. */
  lemma UpdateRouteConfigKeepsValid(st: AppState, route: string, p: Routes.RoutePatch)
    requires Valid(st)
    requires route in st.routes
    requires p.order.None?
    ensures Valid(UpdateRouteConfig(st, route, p))
  {
    Routes.UpdateKeepsDense(st.routes, route, p);
  }

  /** Deleting a route keeps every invariant: it only happens when no student
      refers to the route, and the orders are compacted. */
  lemma DeleteRouteKeepsValid(st: AppState, route: string)
    requires Valid(st)
    requires route in st.routes
    ensures Valid(DeleteRoute(st, route))
  {
    if CanDeleteRoute(st, route) {
      Routes.RemoveKeepsDense(st.routes, route);
    }
  }

  /** Moving a route to a position in 0..n-1 keeps every invariant. */
  lemma ReorderKeepsValid(st: AppState, route: string, target: int)
    requires Valid(st)
    requires route in st.routes
    requires 0 <= target < |st.routes|
    ensures Valid(ReorderRoutes(st, route, target))
  {
    Routes.ReorderKeepsDense(st.routes, route, target);
  }

  /** Clarification changes keep every invariant. */
  lemma ClarificationsKeepValid(st: AppState, data: ClarificationData, id: string, now: int)
    requires Valid(st)
    ensures Valid(AddClarification(st, data, id, now))
    ensures Valid(DeleteClarification(st, id))
  {
  }

  /** Tickets are not issue-once: deleting the student with the highest ticket
      makes that ticket the next one issued again. */
  lemma TicketReusedAfterDelete()
    ensures var a := Student("a", "Ana", "Diaz", "1", "FC", "Norte", 1, Pending, 0, "9");
            var b := a.(id := "b", code := "2", ticketNumber := 2);
            && NextTicket([a, b], "Norte") == 3
            && DeleteStudent(AppState([a, b], map[], [], false, None), "b").students == [a]
            && NextTicket([a], "Norte") == 2
  {
    var a := Student("a", "Ana", "Diaz", "1", "FC", "Norte", 1, Pending, 0, "9");
    var b := a.(id := "b", code := "2", ticketNumber := 2);
    TwoOnRoute(a, b);
    DeleteSecond(a, b);
    OneOnRoute(a);
  }

  lemma TwoOnRoute(a: Student, b: Student)
    requires a.route == b.route
    ensures RouteStudents([a, b], a.route) == [a, b]
  {
    assert [a, b][1..] == [b];
    assert Seqs.Filter([b], OnRoute(a.route)) == [b];
  }

  lemma OneOnRoute(a: Student)
    ensures RouteStudents([a], a.route) == [a]
  {
  }

  lemma DeleteSecond(a: Student, b: Student)
    requires a.id != b.id
    ensures Seqs.Filter([a, b], NotId(b.id)) == [a]
  {
    assert [a, b][1..] == [b];
    assert Seqs.Filter([b], NotId(b.id)) == [];
  }
}

=== FILE: edit_student_modal.dfy ===
/**
 The administrator's edit dialog for one student: it starts from the
 student's record, checks the five editable fields and the code, and writes
 back a record that differs from the original in those five fields only.
 */
module EditStudentModal {
  import opened Types
  import Text
  import opened AppContext

  /** The editable fields. */
  datatype EditForm = EditForm(name: string, lastName: string, code: string, faculty: string, phone: string)

  /** The form as the dialog opens. A student saved without a phone (older
      snapshots) is represented with the empty phone, which is what
      `student.phone || ''` yields. */
  function InitialForm(s: Student): (f: EditForm)
    ensures f.name == s.name && f.lastName == s.lastName && f.code == s.code
    ensures f.faculty == s.faculty && f.phone == s.phone
  {
    EditForm(s.name, s.lastName, s.code, s.faculty, s.phone)
  }

  /** A required field is blank after trimming, or the faculty is empty. */
  predicate MissingField(f: EditForm) {
    || Text.IsBlank(f.name) || Text.IsBlank(f.lastName) || Text.IsBlank(f.code)
    || f.faculty == "" || Text.IsBlank(f.phone)
  }

  /** The record written back: the original with the five fields replaced. */
  function Edited(s: Student, f: EditForm): Student {
    s.(name := f.name, lastName := f.lastName, code := f.code, faculty := f.faculty, phone := f.phone)
  }

  datatype EditError = MissingFields | CodeTaken

  /** `handleSubmit`: a blank field refuses; a code that differs from the
      student's own and is held by any student refuses; otherwise the edited
      record replaces the student. A refusal leaves the state alone. */
  function Submit(st: AppState, s: Student, f: EditForm): (r: (AppState, Option<EditError>))
    ensures r.1 == Some(MissingFields) <==> MissingField(f)
    ensures r.1 == Some(CodeTaken) <==>
              !MissingField(f) && f.code != s.code && IsCodeRegistered(st.students, f.code)
    ensures r.1.Some? ==> r.0 == st
    ensures r.1.None? ==> r.0 == UpdateStudent(st, Edited(s, f))
  {
    if MissingField(f) then (st, Some(MissingFields))
    else if f.code != s.code && IsCodeRegistered(st.students, f.code) then (st, Some(CodeTaken))
    else (UpdateStudent(st, Edited(s, f)), None)
  }

  /** An accepted edit changes the student's five editable fields and nothing
      else: id, route, ticket, status and timestamp stay, and every other
      student is untouched. */
  lemma EditPreservesIdentity(st: AppState, k: nat, f: EditForm)
    requires k < |st.students|
    requires IdsUnique(st.students)
    requires Submit(st, st.students[k], f).1.None?
    ensures var s := st.students[k];
            var t := Submit(st, s, f).0.students[k];
            && t.id == s.id && t.route == s.route && t.ticketNumber == s.ticketNumber
            && t.status == s.status && t.timestamp == s.timestamp
            && t.name == f.name && t.lastName == f.lastName && t.code == f.code
            && t.faculty == f.faculty && t.phone == f.phone
    ensures forall i :: 0 <= i < |st.students| && i != k ==> Submit(st, st.students[k], f).0.students[i] == st.students[i]
    ensures |Submit(st, st.students[k], f).0.students| == |st.students|
  {
    var s := st.students[k];
    forall i | 0 <= i < |st.students| && i != k ensures st.students[i].id != s.id {
      if i < k {
        assert DistinctIds(st.students[i], s);
      } else {
        assert DistinctIds(s, st.students[i]);
      }
    }
  }

  /** Keeping the student's own code is never refused as taken. */
  lemma OwnCodeAccepted(st: AppState, s: Student, f: EditForm)
    requires !MissingField(f)
    requires f.code == s.code
    ensures Submit(st, s, f).1.None?
  {
  }

  /** Opening the dialog on a student without a phone and saving at once is
      refused as incomplete. */
  lemma MissingPhoneBlocksSave(st: AppState, s: Student)
    requires s.phone == ""
    ensures Submit(st, s, InitialForm(s)).1 == Some(MissingFields)
  {
    assert Text.IsBlank("");
  }

  /** An accepted edit keeps the state valid; in particular codes stay
      pairwise distinct. */
  lemma EditKeepsValid(st: AppState, k: nat, f: EditForm)
    requires Valid(st)
    requires k < |st.students|
    requires Submit(st, st.students[k], f).1.None?
    ensures Valid(Submit(st, st.students[k], f).0)
  {
    var s := st.students[k];
    forall i | 0 <= i < |st.students| && i != k ensures st.students[i].code != f.code {
      if f.code == s.code {
        if i < k {
          assert DistinctCodes(st.students[i], s);
        } else {
          assert DistinctCodes(s, st.students[i]);
        }
      } else {
        assert !IsCodeRegistered(st.students, f.code);
      }
    }
    UpdateKeepsValid(st, k, Edited(s, f));
  }
}

=== FILE: registration_display.dfy ===
/**
 The public list of registrations: an optional route filter, a
 case-insensitive search, ordering by ticket, and pages of ten.
 */
module RegistrationDisplay {
  import opened Types
  import Text
  import Seqs
  import opened AppContext

  const ItemsPerPage: nat := 10

  /** `a.ticketNumber - b.ticketNumber` as a sort key. */
  function TicketKey(): Student -> int {
    (s: Student) => s.ticketNumber
  }

  /** The public search: the lowered term occurs in the lowered name, last
      name or code. The phone is not searched. */
  predicate MatchesPublic(s: Student, term: string) {
    var t := Text.Lower(term);
    Text.Includes(Text.Lower(s.name), t) || Text.Includes(Text.Lower(s.lastName), t)
    || Text.Includes(Text.Lower(s.code), t)
  }

  function PublicSearch(term: string): Student -> bool {
    (s: Student) => MatchesPublic(s, term)
  }

  /** `if (selectedRoute)`: the empty route name is falsy, like no selection. */
  predicate RouteSelected(selected: Option<string>) {
    selected.Some? && selected.value != ""
  }

  /** A student passes the route filter and the search. */
  predicate Shown(s: Student, selected: Option<string>, term: string) {
    && (RouteSelected(selected) ==> s.route == selected.value)
    && (term != "" ==> MatchesPublic(s, term))
  }

  /** The route filter of the effect. */
  function ByRoute(students: seq<Student>, selected: Option<string>): (r: seq<Student>)
    ensures multiset(r) <= multiset(students)
    ensures forall x :: x in r ==> RouteSelected(selected) ==> x.route == selected.value
    ensures forall x :: x in students && (RouteSelected(selected) ==> x.route == selected.value) ==> x in r
  {
    if RouteSelected(selected) then Seqs.Filter(students, OnRoute(selected.value)) else students
  }

  /** The search of the effect; an empty term keeps everything. */
  function BySearch(students: seq<Student>, term: string): (r: seq<Student>)
    ensures multiset(r) <= multiset(students)
    ensures forall x :: x in r ==> term != "" ==> MatchesPublic(x, term)
    ensures forall x :: x in students && (term != "" ==> MatchesPublic(x, term)) ==> x in r
  {
    if term != "" then Seqs.Filter(students, PublicSearch(term)) else students
  }

  /** The list the effect computes: students on the selected route, if one
      is selected, that match the search, if there is a term, in ascending
      ticket order. It holds every such student, nothing else, and each at
      most as often as the state holds it. */
  function Listed(students: seq<Student>, selected: Option<string>, term: string): (r: seq<Student>)
    ensures multiset(r) <= multiset(students)
    ensures Seqs.SortedBy(r, TicketKey())
    ensures forall x :: x in r ==> Shown(x, selected, term)
    ensures forall x :: x in students && Shown(x, selected, term) ==> x in r
  {
    var byRoute := ByRoute(students, selected);
    var bySearch := BySearch(byRoute, term);
    var r := Seqs.SortBy(bySearch, TicketKey());
    assert forall x :: x in r <==> x in multiset(bySearch);
    assert forall x :: x in bySearch ==> x in multiset(byRoute);
    r
  }

  function ShownFilter(selected: Option<string>, term: string): Student -> bool {
    (s: Student) => Shown(s, selected, term)
  }

  function ShownWithTicket(selected: Option<string>, term: string, k: int): Student -> bool {
    (s: Student) => Shown(s, selected, term) && s.ticketNumber == k
  }

  /** The two filters of the effect together are one filter by `Shown`, so
      the students that pass keep the order they have in the state. */
  lemma FiltersAreShown(students: seq<Student>, selected: Option<string>, term: string)
    ensures BySearch(ByRoute(students, selected), term) == Seqs.Filter(students, ShownFilter(selected, term))
  {
    var shown := ShownFilter(selected, term);
    if RouteSelected(selected) && term != "" {
      Seqs.FilterTwice(students, OnRoute(selected.value), PublicSearch(term), shown);
    } else if RouteSelected(selected) {
      Seqs.FilterEquivalent(students, OnRoute(selected.value), shown);
    } else if term != "" {
      Seqs.FilterEquivalent(students, PublicSearch(term), shown);
    } else {
      Seqs.FilterAll(students, shown);
    }
  }

  /** Ticket numbers restart at 1 on every route, so without a route filter
      several students hold the same ticket. The sort is stable: students
      with equal tickets are listed in the order the state holds them. */
  lemma ListedKeepsTieOrder(students: seq<Student>, selected: Option<string>, term: string, k: int)
    ensures Seqs.Filter(Listed(students, selected, term), Seqs.KeyIs(TicketKey(), k))
         == Seqs.Filter(students, ShownWithTicket(selected, term, k))
  {
    var bySearch := BySearch(ByRoute(students, selected), term);
    FiltersAreShown(students, selected, term);
    Seqs.SortByStable(bySearch, TicketKey(), k);
    Seqs.FilterTwice(students, ShownFilter(selected, term), Seqs.KeyIs(TicketKey(), k),
                     ShownWithTicket(selected, term, k));
  }

  /** With no route selected and no search term every student is listed. */
  lemma NoFilterListsEveryone(students: seq<Student>)
    ensures multiset(Listed(students, None, "")) == multiset(students)
    ensures |Listed(students, None, "")| == |students|
  {
    assert multiset(Listed(students, None, "")) == multiset(Seqs.SortBy(students, TicketKey()));
  }

  /** What the screen holds: the selection, the search term, the computed
      list and the current page. */
  datatype View = View(selected: Option<string>, term: string, list: seq<Student>, page: int)

  /** The effect that runs whenever the selection, the term or the student
      list changes: the list is recomputed and the page goes back to 1. */
  function Refresh(students: seq<Student>, selected: Option<string>, term: string): (v: View)
    ensures v.page == 1
    ensures v.selected == selected && v.term == term
    ensures multiset(v.list) <= multiset(students)
    ensures forall x :: x in v.list ==> Shown(x, selected, term)
  {
    View(selected, term, Listed(students, selected, term), 1)
  }

  // ---------------------------------------------------------------------------
  // Pagination

  /** `Math.ceil(n / 10)`: the fewest pages of ten that hold n items. */
  function TotalPages(n: nat): (t: nat)
    ensures t * ItemsPerPage >= n
    ensures t == 0 || (t - 1) * ItemsPerPage < n
    ensures t == 0 <==> n == 0
  {
    (n + ItemsPerPage - 1) / ItemsPerPage
  }

  /** After a refresh the current page exists whenever there is anything to show. */
  lemma RefreshPageInRange(students: seq<Student>, selected: Option<string>, term: string)
    ensures var v := Refresh(students, selected, term);
            |v.list| > 0 ==> 1 <= v.page <= TotalPages(|v.list|)
  {
  }

  function Min(a: int, b: int): int {
    if a <= b then a else b
  }

  /** `list.slice((p - 1) * 10, (p - 1) * 10 + 10)`: the items of page `p`,
      those at positions (p-1)*10 up to but excluding min(p*10, n). */
  function PageItems<T>(list: seq<T>, p: int): (r: seq<T>)
    requires p >= 1
    ensures |r| <= ItemsPerPage
    ensures (p - 1) * ItemsPerPage >= |list| ==> r == []
    ensures (p - 1) * ItemsPerPage < |list| ==> |r| == Min(ItemsPerPage, |list| - (p - 1) * ItemsPerPage)
    ensures forall j :: 0 <= j < |r| ==> r[j] == list[(p - 1) * ItemsPerPage + j]
  {
    var start := Min((p - 1) * ItemsPerPage, |list|);
    var end := Min(p * ItemsPerPage, |list|);
    list[start..end]
  }

  /** Pages 1..k in order. */
  function PagesUpTo<T>(list: seq<T>, k: nat): seq<T> {
    if k == 0 then [] else PagesUpTo(list, k - 1) + PageItems(list, k)
  }

  lemma {:induction false} PagesUpToPrefix<T>(list: seq<T>, k: nat)
    ensures PagesUpTo(list, k) == list[..Min(k * ItemsPerPage, |list|)]
  {
    if k > 0 {
      PagesUpToPrefix(list, k - 1);
      var a := Min((k - 1) * ItemsPerPage, |list|);
      var b := Min(k * ItemsPerPage, |list|);
      assert list[..a] + list[a..b] == list[..b];
    }
  }

  /** The pages, read in order, give back the whole list: nothing is shown
      twice and nothing is skipped. */
  lemma PagesConcatenate<T>(list: seq<T>)
    ensures PagesUpTo(list, TotalPages(|list|)) == list
  {
    PagesUpToPrefix(list, TotalPages(|list|));
  }

  /** The buttons below the list. */
  datatype NavAction = Previous | Next | GoTo(target: int)

  /** "Previous" is disabled on page 1, "next" on the last page; the numbered
      buttons go to pages 1..total. */
  predicate Enabled(a: NavAction, page: int, total: int) {
    match a
    case Previous => page != 1
    case Next => page != total
    case GoTo(t) => 1 <= t <= total
  }

  /** One click: an enabled button moves the page, a disabled one does nothing. */
  function Navigate(page: int, total: int, a: NavAction): int {
    if !Enabled(a, page, total) then page
    else match a
      case Previous => page - 1
      case Next => page + 1
      case GoTo(t) => t
  }

  function NavigateAll(page: int, total: int, clicks: seq<NavAction>): int
    decreases |clicks|
  {
    if |clicks| == 0 then page else NavigateAll(Navigate(page, total, clicks[0]), total, clicks[1..])
  }

  /** The controls are shown only when there are two pages or more; from any
      page in range, every sequence of clicks stays on a page in range. */
  lemma {:induction false} NavigationStaysInRange(page: int, total: int, clicks: seq<NavAction>)
    requires total > 1
    requires 1 <= page <= total
    ensures 1 <= NavigateAll(page, total, clicks) <= total
    decreases |clicks|
  {
    if |clicks| > 0 {
      NavigationStaysInRange(Navigate(page, total, clicks[0]), total, clicks[1..]);
    }
  }
}

=== FILE: registration_form.dfy ===
/**
 The self-service registration form: the code check run when the code field
 loses focus, the submit pipeline that screens a request before handing it to
 the engine, and the list of routes the form offers.
 */
module RegistrationForm {
  import opened Types
  import Text
  import Routes
  import opened AppContext

  /** The form's fields, kept exactly as typed; `route` and `faculty` are ""
      until chosen. */
  datatype FormData = FormData(
    name: string,
    lastName: string,
    code: string,
    faculty: string,
    route: string,
    phone: string)

  const EmptyForm: FormData := FormData("", "", "", "", "", "")

  /** The request the form passes to the engine: its fields, untrimmed. */
  function ToStudentData(f: FormData): StudentData {
    StudentData(f.name, f.lastName, f.code, f.faculty, f.route, f.phone)
  }

  // ---------------------------------------------------------------------------
  // validateCode

  /** The message shown under the code field. */
  datatype CodeStatus = Warning | Error | Success

  /** `validateCode()`: no message for a blank code, a warning for a code in
      the clarification list, an error for a code already registered (the
      clarification list is consulted first), and success otherwise. The flag
      is true only with the success message. */
  function ValidateCode(st: AppState, code: string): (r: (Option<CodeStatus>, bool))
    ensures r.1 <==> r.0 == Some(Success)
    ensures r.0.None? <==> Text.IsBlank(code)
    ensures r.0 == Some(Warning) <==>
              !Text.IsBlank(code) && IsCodeInClarificationList(st.clarifications, code)
    ensures r.0 == Some(Error) <==>
              && !Text.IsBlank(code)
              && !IsCodeInClarificationList(st.clarifications, code)
              && IsCodeRegistered(st.students, code)
  {
    if Text.IsBlank(code) then (None, false)
    else if IsCodeInClarificationList(st.clarifications, code) then (Some(Warning), false)
    else if IsCodeRegistered(st.students, code) then (Some(Error), false)
    else (Some(Success), true)
  }

  /** On a route with room, the code check predicts the engine exactly: a
      non-blank code passes the check if and only if self-service
      registration with it succeeds. */
  lemma ValidateCodeAgreesWithEngine(st: AppState, data: StudentData, id: string, now: int)
    requires data.route in st.routes
    requires CountOnRoute(st.students, data.route) < st.routes[data.route].capacity
    requires !Text.IsBlank(data.code)
    ensures ValidateCode(st, data.code).1 <==> RegisterStudent(st, data, id, now).student.Some?
  {
  }

  /** The check compares codes exactly as typed: a registered code with one
      white-space character in front passes it, although both trim to the
      same text. */
  lemma PaddedCodePassesCheck(st: AppState, code: string, w: char)
    requires Text.IsWhitespace(w)
    requires !Text.IsBlank(code)
    requires IsCodeRegistered(st.students, code)
    requires !IsCodeRegistered(st.students, [w] + code)
    requires !IsCodeInClarificationList(st.clarifications, [w] + code)
    ensures ValidateCode(st, [w] + code).1
    ensures Text.Trim([w] + code) == Text.Trim(code)
  {
    assert ([w] + code)[1..] == code;
    assert Text.TrimStart([w] + code) == Text.TrimStart(code);
  }

  // ---------------------------------------------------------------------------
  // handleSubmit

  /** A required field is missing: name, last name, code or phone is blank
      after trimming, or no faculty is chosen. */
  predicate MissingField(f: FormData) {
    || Text.IsBlank(f.name) || Text.IsBlank(f.lastName) || Text.IsBlank(f.code)
    || f.faculty == "" || Text.IsBlank(f.phone)
  }

  /** Why a submission was refused, in the order the checks run. */
  datatype SubmitError = MissingFields | NoRoute | Blocked | Inactive | Full | NotRegistered

  datatype Outcome = Registered(student: Student) | Refused(error: SubmitError)

  /** The state after a submission, the form as it is left, the message left
      under the code field, and the outcome. */
  datatype SubmitResult = SubmitResult(state: AppState, form: FormData, codeStatus: Option<CodeStatus>, outcome: Outcome)

  /** The form reads the route's configuration only once the field, route and
      clarification checks have passed; the route is then one the form offered. */
  predicate SubmitLookupSafe(st: AppState, f: FormData) {
    MissingField(f) || f.route == "" || IsCodeInClarificationList(st.clarifications, f.code) || f.route in st.routes
  }

  /** The route's configuration is read and the checks before it passed. */
  predicate PassesScreening(st: AppState, f: FormData)
    requires SubmitLookupSafe(st, f)
  {
    && !MissingField(f) && f.route != "" && !IsCodeInClarificationList(st.clarifications, f.code)
    && st.routes[f.route].isActive
    && CountOnRoute(st.students, f.route) < st.routes[f.route].capacity
  }

  /** `handleSubmit`: the first failing check decides the refusal, and a
      refusal leaves the state and the form as they were. A submission that
      passes every check goes to `registerStudent`; if it returns a student the
      form is cleared and the message under the code field, `shown`, is
      removed. */
  function HandleSubmit(st: AppState, f: FormData, shown: Option<CodeStatus>, id: string, now: int): (r: SubmitResult)
    requires SubmitLookupSafe(st, f)
    ensures r.outcome.Refused? ==> r.state == st && r.form == f && r.codeStatus == shown
    ensures r.outcome.Registered? ==> r.codeStatus.None?
    ensures r.outcome == Refused(MissingFields) <==> MissingField(f)
    ensures r.outcome == Refused(NoRoute) <==> !MissingField(f) && f.route == ""
    ensures r.outcome == Refused(Blocked) <==>
              !MissingField(f) && f.route != "" && IsCodeInClarificationList(st.clarifications, f.code)
    ensures r.outcome == Refused(Inactive) <==>
              && !MissingField(f) && f.route != "" && !IsCodeInClarificationList(st.clarifications, f.code)
              && !st.routes[f.route].isActive
    ensures r.outcome == Refused(Full) <==>
              && !MissingField(f) && f.route != "" && !IsCodeInClarificationList(st.clarifications, f.code)
              && st.routes[f.route].isActive
              && CountOnRoute(st.students, f.route) >= st.routes[f.route].capacity
    ensures r.outcome == Refused(NotRegistered) <==>
              PassesScreening(st, f) && IsCodeRegistered(st.students, f.code)
    ensures r.outcome.Registered? ==>
              && PassesScreening(st, f) && !IsCodeRegistered(st.students, f.code)
              && r.form == EmptyForm
              && r.state == st.(students := st.students + [r.outcome.student])
              && r.outcome.student.code == f.code && r.outcome.student.route == f.route
              && r.outcome.student.status == Pending
  {
    if MissingField(f) then SubmitResult(st, f, shown, Refused(MissingFields))
    else if f.route == "" then SubmitResult(st, f, shown, Refused(NoRoute))
    else if IsCodeInClarificationList(st.clarifications, f.code) then SubmitResult(st, f, shown, Refused(Blocked))
    else if !st.routes[f.route].isActive then SubmitResult(st, f, shown, Refused(Inactive))
    else if CountOnRoute(st.students, f.route) >= st.routes[f.route].capacity then SubmitResult(st, f, shown, Refused(Full))
    else
      var reg := RegisterStudent(st, ToStudentData(f), id, now);
      if reg.student.Some? then SubmitResult(reg.state, EmptyForm, None, Registered(reg.student.value))
      else SubmitResult(st, f, shown, Refused(NotRegistered))
  }

  /** The form adds the field checks and the `isActive` check to the engine's
      rule and nothing else: on an existing route it registers a student
      exactly when the fields are filled in, the route is active and
      `registerStudent` admits the request. */
  lemma FormIsEngineplusActiveCheck(st: AppState, f: FormData, shown: Option<CodeStatus>, id: string, now: int)
    requires f.route in st.routes
    ensures HandleSubmit(st, f, shown, id, now).outcome.Registered? <==>
              && !MissingField(f) && f.route != "" && st.routes[f.route].isActive
              && RegisterStudent(st, ToStudentData(f), id, now).student.Some?
    ensures HandleSubmit(st, f, shown, id, now).outcome.Registered? ==>
              HandleSubmit(st, f, shown, id, now).state == RegisterStudent(st, ToStudentData(f), id, now).state
  {
  }

  /** The engine never looks at `isActive`: a request on an inactive route
      with room and an unused, unblocked code is admitted by `registerStudent`
      and refused only by the form. */
  lemma EngineAdmitsInactiveRoute(st: AppState, f: FormData, shown: Option<CodeStatus>, id: string, now: int)
    requires f.route in st.routes && f.route != ""
    requires !st.routes[f.route].isActive
    requires !MissingField(f)
    requires CountOnRoute(st.students, f.route) < st.routes[f.route].capacity
    requires !IsCodeRegistered(st.students, f.code)
    requires !IsCodeInClarificationList(st.clarifications, f.code)
    ensures RegisterStudent(st, ToStudentData(f), id, now).student.Some?
    ensures HandleSubmit(st, f, shown, id, now).outcome == Refused(Inactive)
  {
  }

  /** A submission keeps the state valid. */
  lemma SubmitKeepsValid(st: AppState, f: FormData, shown: Option<CodeStatus>, id: string, now: int)
    requires Valid(st)
    requires FreshId(st.students, id)
    requires SubmitLookupSafe(st, f)
    ensures Valid(HandleSubmit(st, f, shown, id, now).state)
  {
    if HandleSubmit(st, f, shown, id, now).outcome.Registered? {
      RegisterKeepsValid(st, ToStudentData(f), id, now);
    }
  }

  // ---------------------------------------------------------------------------
  // The route options

  /** A route is full when it holds as many students as its capacity. */
  predicate IsFull(st: AppState, route: string)
    requires route in st.routes
  {
    CountOnRoute(st.students, route) >= st.routes[route].capacity
  }

  /** The options the form shows, in order: every active route, each with
      its "disabled" flag, which is set exactly when the route is full. */
  ghost function RouteOptions(st: AppState): (r: seq<(string, bool)>)
    requires Routes.Dense(st.routes)
    ensures |r| == |Routes.ActiveSortedKeys(st.routes)|
    ensures forall i :: 0 <= i < |r| ==>
              && r[i].0 == Routes.ActiveSortedKeys(st.routes)[i]
              && r[i].0 in st.routes
              && (r[i].1 <==> IsFull(st, r[i].0))
  {
    var keys := Routes.ActiveSortedKeys(st.routes);
    seq(|keys|, i requires 0 <= i < |keys| => (keys[i], IsFull(st, keys[i])))
  }

  /** A disabled option cannot lead to a registration, through the form or
      through the engine. */
  lemma FullRouteRefused(st: AppState, f: FormData, shown: Option<CodeStatus>, id: string, now: int)
    requires f.route in st.routes
    requires IsFull(st, f.route)
    ensures !HandleSubmit(st, f, shown, id, now).outcome.Registered?
    ensures RegisterStudent(st, ToStudentData(f), id, now).student.None?
  {
  }
}

=== FILE: route_configuration.dfy ===
/**
 The administrator's route screen: reordering routes by drag and drop,
 adding a route, saving the edited configuration of the selected tab, and
 deleting a route.
 */
module RouteConfiguration {
  import opened Types
  import Text
  import Seqs
  import Routes
  import opened AppContext

  // ---------------------------------------------------------------------------
  // handleDragEnd

  /** `names.forEach(([route], index) => reorderRoutes(route, index))` from
      position `k` on. The calls share the route objects, so each one sees
      the orders the previous ones left. */
  function ApplyMoves(routes: Routes.RouteMap, names: seq<string>, k: nat): (r: Routes.RouteMap)
    requires forall j :: 0 <= j < |names| ==> names[j] in routes
    requires k <= |names|
    ensures r.Keys == routes.Keys
    decreases |names| - k
  {
    if k == |names| then routes
    else ApplyMoves(Routes.Reorder(routes, names[k], k), names, k + 1)
  }

  /** `names` lists every route of the map exactly once. */
  predicate Lists(routes: Routes.RouteMap, names: seq<string>) {
    && |names| == |routes| && Seqs.Distinct(names)
    && forall j :: 0 <= j < |names| ==> names[j] in routes
  }

  /** The first `k` names sit at their positions. */
  predicate PlacedBelow(routes: Routes.RouteMap, names: seq<string>, k: nat)
    requires Lists(routes, names) && k <= |names|
  {
    forall j :: 0 <= j < k ==> routes[names[j]].order == j
  }

  /** The route placed at position `k` of a dense map whose positions
      0..k-1 hold the names before it has an order of at least `k`. */
  lemma NextOrderNotBelow(routes: Routes.RouteMap, names: seq<string>, k: nat)
    requires Routes.Dense(routes) && Lists(routes, names)
    requires k < |names| && PlacedBelow(routes, names, k)
    ensures routes[names[k]].order >= k
  {
    var o := routes[names[k]].order;
    assert 0 <= o < |names|;
    assert routes[names[o]].order == o || o >= k;
  }

  /** One step of the drag: once `names[k]` is moved to `k`, the names before
      it keep their positions, and the map stays dense. */
  lemma MoveStep(routes: Routes.RouteMap, names: seq<string>, k: nat)
    requires Routes.Dense(routes) && Lists(routes, names)
    requires k < |names| && PlacedBelow(routes, names, k)
    ensures Routes.Dense(Routes.Reorder(routes, names[k], k))
    ensures Lists(Routes.Reorder(routes, names[k], k), names)
    ensures PlacedBelow(Routes.Reorder(routes, names[k], k), names, k + 1)
  {
    var next := Routes.Reorder(routes, names[k], k);
    NextOrderNotBelow(routes, names, k);
    Routes.ReorderKeepsDense(routes, names[k], k);
    assert |next| == |routes| by {
      assert next.Keys == routes.Keys;
    }
    forall j | 0 <= j < k ensures next[names[j]].order == j {
      assert names[j] != names[k];
    }
  }

  /** After the calls from position `k` on, every name sits at its position,
      provided the names before `k` already did. */
  lemma {:induction false} ApplyMovesPlaces(routes: Routes.RouteMap, names: seq<string>, k: nat)
    requires Routes.Dense(routes) && Lists(routes, names)
    requires k <= |names| && PlacedBelow(routes, names, k)
    ensures Routes.Dense(ApplyMoves(routes, names, k))
    ensures Lists(ApplyMoves(routes, names, k), names)
    ensures PlacedBelow(ApplyMoves(routes, names, k), names, |names|)
    decreases |names| - k
  {
    if k < |names| {
      MoveStep(routes, names, k);
      ApplyMovesPlaces(Routes.Reorder(routes, names[k], k), names, k + 1);
    }
  }

  /** The drop target of a drag, if any. */
  predicate MovesSomething(routes: Routes.RouteMap, active: string, over: Option<string>) {
    over.Some? && active != over.value && active in routes && over.value in routes
  }

  /** `handleDragEnd`: nothing happens without a drop target, when a route is
      dropped on itself, or when either route is not listed. Otherwise the
      listed routes are rearranged with `arrayMove` and every route is sent
      to its new position in turn; the routes then list in exactly the
      rearranged order, and the orders stay dense. */
  ghost function DragEnd(st: AppState, active: string, over: Option<string>): (r: AppState)
    requires Routes.Dense(st.routes)
    ensures r.students == st.students && r.clarifications == st.clarifications
    ensures Routes.Dense(r.routes)
    ensures !MovesSomething(st.routes, active, over) ==> r == st
    ensures MovesSomething(st.routes, active, over) ==>
              var keys := Routes.SortedKeys(st.routes);
              && 0 <= Seqs.IndexOf(keys, active) && 0 <= Seqs.IndexOf(keys, over.value)
              && Routes.SortedKeys(r.routes)
                 == Seqs.ArrayMove(keys, Seqs.IndexOf(keys, active), Seqs.IndexOf(keys, over.value))
  {
    var keys := Routes.SortedKeys(st.routes);
    Routes.SortedKeysListing(st.routes);
    if over.None? || active == over.value then st
    else
      var from := Seqs.IndexOf(keys, active);
      var to := Seqs.IndexOf(keys, over.value);
      if from == -1 || to == -1 then st
      else
        var moved := Seqs.ArrayMove(keys, from, to);
        Seqs.ArrayMoveDistinct(keys, from, to);
        assert forall j :: 0 <= j < |moved| ==> moved[j] in multiset(keys);
        ApplyMovesPlaces(st.routes, moved, 0);
        var routes := ApplyMoves(st.routes, moved, 0);
        Routes.SortedKeysUnique(routes, moved);
        st.(routes := routes)
  }

  /** After a drag the dragged route is listed where it was dropped. */
  lemma DragPutsRouteAtTarget(st: AppState, active: string, over: string)
    requires Routes.Dense(st.routes)
    requires MovesSomething(st.routes, active, Some(over))
    ensures var keys := Routes.SortedKeys(st.routes);
            Routes.SortedKeys(DragEnd(st, active, Some(over)).routes)[Seqs.IndexOf(keys, over)] == active
  {
  }

  /** A drag keeps the state valid. */
  lemma DragKeepsValid(st: AppState, active: string, over: Option<string>)
    requires Valid(st)
    ensures Valid(DragEnd(st, active, over))
  {
    var r := DragEnd(st, active, over);
    if MovesSomething(st.routes, active, over) {
      Routes.SortedKeysListing(st.routes);
      var keys := Routes.SortedKeys(st.routes);
      var moved := Seqs.ArrayMove(keys, Seqs.IndexOf(keys, active), Seqs.IndexOf(keys, over.value));
      assert forall k :: k in st.routes ==> k in multiset(moved);
      assert forall k :: k in st.routes ==> k in r.routes by {
        forall k | k in st.routes ensures k in r.routes {
          assert k in Routes.SortedKeys(r.routes);
        }
      }
    }
  }

  // ---------------------------------------------------------------------------
  // Numeric inputs

  /** `parseInt(value) || 0` on the text of a number input. */
  function NumberInput(value: string): int {
    Text.ParseIntOrZero(value)
  }

  /** A number typed in reads back as itself. */
  lemma NumberInputReadsBack(n: nat)
    ensures NumberInput(Text.DecimalString(n)) == n
  {
    Text.ParseIntRoundTrip(n);
  }

  /** An input that, after its leading white space, starts with neither a
      digit nor a sign is stored as 0. */
  lemma NonNumericInputIsZero(s: string)
    requires |s| > 0 && !Text.IsWhitespace(s[0]) && !Text.IsDigit(s[0])
    requires s[0] != '-' && s[0] != '+'
    ensures NumberInput(s) == 0
  {
    assert Text.TrimStart(s) == s;
  }

  // ---------------------------------------------------------------------------
  // handleAddRoute

  /** The new-route form as it opens and after every successful add. */
  const DefaultNewRoute: NewRoute := NewRoute("", "", true, 50, "#3B82F6")

  /** The result of pressing "add": the state, the form, and whether the
      form stays open. */
  datatype AddResult = AddResult(state: AppState, form: NewRoute, open: bool)

  /** `handleAddRoute`: a blank name or subtitle does nothing; otherwise the
      route is added under its name (untrimmed) and the form closes and
      returns to its defaults. */
  ghost function AddRouteSubmit(st: AppState, form: NewRoute): (r: AddResult)
    requires |st.routes| > 0
    ensures Text.IsBlank(form.name) || Text.IsBlank(form.subtitle) ==> r == AddResult(st, form, true)
    ensures !Text.IsBlank(form.name) && !Text.IsBlank(form.subtitle) ==>
              && r.state == AddRoute(st, form)
              && r.form == DefaultNewRoute && !r.open
  {
    if Text.IsBlank(form.name) || Text.IsBlank(form.subtitle) then AddResult(st, form, true)
    else AddResult(AddRoute(st, form), DefaultNewRoute, false)
  }

  /** A route added under a new name is listed last, with the slug of its
      name as id. */
  lemma AddedRouteListedLast(st: AppState, form: NewRoute)
    requires Routes.Dense(st.routes)
    requires |st.routes| > 0
    requires form.name !in st.routes
    requires !Text.IsBlank(form.name) && !Text.IsBlank(form.subtitle)
    ensures var routes := AddRouteSubmit(st, form).state.routes;
            && Routes.Dense(routes)
            && Routes.SortedKeys(routes)[|st.routes|] == form.name
            && routes[form.name].id == Text.Slug(form.name)
  {
    var routes := Routes.Add(st.routes, form);
    Routes.AddFreshKeepsDense(st.routes, form);
    var keys := Routes.SortedKeys(routes);
    assert |routes| == |st.routes| + 1 by {
      assert routes.Keys == st.routes.Keys + {form.name};
    }
    assert routes[keys[|st.routes|]].order == |st.routes|;
  }

  /** Adding a route under a new name keeps the state valid. */
  lemma AddRouteSubmitKeepsValid(st: AppState, form: NewRoute)
    requires Valid(st)
    requires |st.routes| > 0
    requires form.name !in st.routes
    ensures Valid(AddRouteSubmit(st, form).state)
  {
    AddRouteKeepsValid(st, form);
  }

  // ---------------------------------------------------------------------------
  // handleSave

  /** `{ ...editingConfig }` as a patch: every field given. */
  function FullPatch(c: RouteConfig): Routes.RoutePatch {
    Routes.RoutePatch(Some(c.id), Some(c.name), Some(c.subtitle), Some(c.isActive),
                      Some(c.capacity), Some(c.order), Some(c.color))
  }

  /** `handleSave` as written: the whole edited configuration, including the
      `order` it held when it was copied, is written under the tab's key. The
      tab need not name a route any more: then the route is created again. */
  function SaveAsWritten(st: AppState, tab: string, editing: RouteConfig): (r: AppState)
    ensures r.students == st.students && r.routes.Keys == st.routes.Keys + {tab}
    ensures r.routes[tab] == editing
    ensures forall k :: k in st.routes && k != tab ==> r.routes[k] == st.routes[k]
  {
    var r := UpdateRouteConfig(st, tab, FullPatch(editing));
    assert Routes.Merge(editing, FullPatch(editing)) == editing;
    r
  }

  /** Two routes, "A" first and "B" second, and nobody registered. */
  function TwoRouteState(): (st: AppState)
    ensures Valid(st)
  {
    var st := AppState([], map["A" := RouteConfig("a", "A", "", true, 50, 0, ""),
                               "B" := RouteConfig("b", "B", "", true, 50, 1, "")], [], false, None);
    assert st.routes.Keys == {"A", "B"};
    st
  }

  /** "A" is listed first and "B" second. */
  lemma TwoRouteListing()
    ensures Routes.SortedKeys(TwoRouteState().routes) == ["A", "B"]
  {
    Routes.SortedKeysUnique(TwoRouteState().routes, ["A", "B"]);
  }

  /** Dropping "A" on "B" lists "B" first and "A" second. */
  lemma DragListsBThenA()
    ensures Routes.SortedKeys(DragEnd(TwoRouteState(), "A", Some("B")).routes) == ["B", "A"]
  {
    var keys := Routes.SortedKeys(TwoRouteState().routes);
    TwoRouteListing();
    assert Seqs.IndexOf(keys, "A") == 0;
    assert Seqs.IndexOf(keys, "B") == 1;
    Seqs.ArrayMoveShape(keys, 0, 1);
  }

  /** After the drop "B" holds order 0 and "A" order 1. */
  lemma DragSwapsOrders()
    ensures var dragged := DragEnd(TwoRouteState(), "A", Some("B"));
            dragged.routes["A"].order == 1 && dragged.routes["B"].order == 0
  {
    var dragged := DragEnd(TwoRouteState(), "A", Some("B"));
    DragListsBThenA();
    var listed := Routes.SortedKeys(dragged.routes);
    assert listed[0] == "B" && listed[1] == "A";
  }

  /** A dense map whose orders 0 and 1 are held by "B" and "A" has no other key. */
  lemma OnlyTwoKeys(routes: Routes.RouteMap)
    requires Routes.Dense(routes) && |routes| == 2
    requires "A" in routes && "B" in routes
    requires routes["A"].order == 1 && routes["B"].order == 0
    ensures routes.Keys == {"A", "B"}
  {
    forall k | k in routes ensures k == "A" || k == "B" {
      assert routes[k].order == 0 || routes[k].order == 1;
    }
  }

  /** Dropping "A" on "B" makes `handleDragEnd` send "B" to 0 and then "A"
      to 1: the two routes swap orders and nothing else is listed. */
  lemma DragSwapsTwoRoutes()
    ensures var dragged := DragEnd(TwoRouteState(), "A", Some("B"));
            && Valid(dragged)
            && dragged.routes.Keys == {"A", "B"}
            && dragged.routes["A"].order == 1 && dragged.routes["B"].order == 0
  {
    var dragged := DragEnd(TwoRouteState(), "A", Some("B"));
    DragKeepsValid(TwoRouteState(), "A", Some("B"));
    DragListsBThenA();
    DragSwapsOrders();
    OnlyTwoKeys(dragged.routes);
  }

  /** While untouched, the form shows the live route object, which a drag
      updates in place; the first edited field replaces it with a copy. If
      the capacity of "A" is edited and "A" is then dragged below "B",
      saving writes the copied order 0 back, so both routes have order 0.
      The corrected save, given the same copy, keeps the orders dense. */
  lemma SaveAfterDragBreaksOrders()
    ensures var editing := TwoRouteState().routes["A"].(capacity := 40);
            var dragged := DragEnd(TwoRouteState(), "A", Some("B"));
            && !Routes.Dense(SaveAsWritten(dragged, "A", editing).routes)
            && Valid(Save(dragged, "A", editing))
  {
    var editing := TwoRouteState().routes["A"].(capacity := 40);
    var dragged := DragEnd(TwoRouteState(), "A", Some("B"));
    DragSwapsTwoRoutes();
    var saved := SaveAsWritten(dragged, "A", editing);
    assert saved.routes["A"].order == 0 && saved.routes["B"].order == 0;
    SaveKeepsValid(dragged, "A", editing);
  }

  /** The save with the evident intent: the edited fields are written, but
      the route keeps its current `order`, which only drags change; and a
      route that was deleted while its tab stayed selected stays deleted. */
  function Save(st: AppState, tab: string, editing: RouteConfig): (r: AppState)
    ensures tab !in st.routes ==> r == st
    ensures r.students == st.students && r.routes.Keys == st.routes.Keys
    ensures tab in st.routes ==> r.routes[tab] == editing.(order := st.routes[tab].order)
    ensures forall k :: k in st.routes && k != tab ==> r.routes[k] == st.routes[k]
  {
    if tab in st.routes then UpdateRouteConfig(st, tab, FullPatch(editing).(order := None))
    else st
  }

  /** The corrected save keeps the state valid whatever the form holds;
      a renamed route keeps its key, so students still refer to it. */
  lemma SaveKeepsValid(st: AppState, tab: string, editing: RouteConfig)
    requires Valid(st)
    ensures Valid(Save(st, tab, editing))
  {
    if tab in st.routes {
      UpdateRouteConfigKeepsValid(st, tab, FullPatch(editing).(order := None));
    }
  }

  /** When the form's order is the route's current one (nothing was edited,
      or no drag happened since the first edit), both saves agree. */
  lemma SaveAgreesWhenFresh(st: AppState, tab: string, editing: RouteConfig)
    requires tab in st.routes
    requires editing.order == st.routes[tab].order
    ensures Save(st, tab, editing) == SaveAsWritten(st, tab, editing)
  {
    assert Save(st, tab, editing).routes == SaveAsWritten(st, tab, editing).routes;
  }

  // ---------------------------------------------------------------------------
  // handleConfirmDelete

  /** `handleConfirmDelete`: the route is deleted only when no student is on it. */
  function ConfirmDelete(st: AppState, tab: string): (r: AppState)
    requires tab in st.routes
    ensures !CanDeleteRoute(st, tab) ==> r == st
    ensures CanDeleteRoute(st, tab) ==>
              && r.routes.Keys == st.routes.Keys - {tab}
              && r.students == st.students && r.clarifications == st.clarifications
  {
    if CanDeleteRoute(st, tab) then DeleteRoute(st, tab) else st
  }

  /** On a fresh installation the tab starts on "Norte", and after "Norte" is
      deleted `handleConfirmDelete` selects the first key of the routes as
      they were before the deletion, which is "Norte" again; the form still
      holds its record. Saving then creates "Norte" anew with order 0, which
      "Puente Piedra" now holds. The corrected save leaves it deleted. */
  lemma SaveAfterDeleteRecreatesRoute()
    ensures var deleted := ConfirmDelete(InitialState, "Norte");
            var form := DefaultRoutes["Norte"];
            && "Norte" !in deleted.routes
            && "Norte" in SaveAsWritten(deleted, "Norte", form).routes
            && !Routes.Dense(SaveAsWritten(deleted, "Norte", form).routes)
            && Save(deleted, "Norte", form) == deleted
            && Valid(Save(deleted, "Norte", form))
  {
    var deleted := ConfirmDelete(InitialState, "Norte");
    var form := DefaultRoutes["Norte"];
    assert CanDeleteRoute(InitialState, "Norte");
    assert deleted.routes["Puente Piedra"].order == 0;
    var saved := SaveAsWritten(deleted, "Norte", form);
    assert saved.routes["Norte"].order == 0 && saved.routes["Puente Piedra"].order == 0;
    InitialStateValid();
    ConfirmDeleteKeepsValid(InitialState, "Norte");
  }

  /** Confirming a deletion keeps the state valid, and a route that still has
      students is never removed. */
  lemma ConfirmDeleteKeepsValid(st: AppState, tab: string)
    requires Valid(st)
    requires tab in st.routes
    ensures Valid(ConfirmDelete(st, tab))
    ensures (exists i :: 0 <= i < |st.students| && st.students[i].route == tab) ==>
              tab in ConfirmDelete(st, tab).routes
  {
    DeleteRouteKeepsValid(st, tab);
  }
}

=== FILE: routes.dfy ===
/**
 The route map of the application state: routes keyed by name, each with a
 display `order`. The operations here are the map computations behind
 `addRoute`, `updateRouteConfig`, `deleteRoute`, `reorderRoutes` and
 `getSortedRoutes`; the central invariant is that the orders are a dense
 permutation of 0..n-1.
 */
module Routes {
  import opened Types
  import Text
  import Seqs

  type RouteMap = map<string, RouteConfig>

  /** Every order lies in 0..n-1 and no two routes share one, so the orders
      are exactly 0..n-1 (see `DenseOrdersAreRange`). */
  predicate Dense(routes: RouteMap) {
    && (forall k :: k in routes ==> 0 <= routes[k].order < |routes|)
    && (forall k1, k2 :: k1 in routes && k2 in routes && k1 != k2 ==> routes[k1].order != routes[k2].order)
  }

  // ---------------------------------------------------------------------------
  // Counting: n routes with distinct orders below n use every order below n.

  ghost function OrdersOf(routes: RouteMap, keys: set<string>): (r: set<int>)
    requires keys <= routes.Keys
    ensures forall k :: k in keys ==> routes[k].order in r
    ensures forall o :: o in r ==> exists k :: k in keys && routes[k].order == o
  {
    set k | k in keys :: routes[k].order
  }

  /** The set 0..n-1. */
  ghost function Below(n: nat): (r: set<int>)
    ensures |r| == n
    ensures forall i :: i in r <==> 0 <= i < n
  {
    if n == 0 then {} else Below(n - 1) + {n - 1}
  }

  lemma {:induction false} OrdersOfSize(routes: RouteMap, keys: set<string>)
    requires keys <= routes.Keys
    requires Dense(routes)
    ensures |OrdersOf(routes, keys)| == |keys|
    decreases keys
  {
    if keys != {} {
      var k :| k in keys;
      OrdersOfSize(routes, keys - {k});
      assert routes[k].order !in OrdersOf(routes, keys - {k});
      assert OrdersOf(routes, keys) == OrdersOf(routes, keys - {k}) + {routes[k].order};
    }
  }

  lemma SubsetSize(a: set<int>, b: set<int>)
    requires a <= b
    ensures |a| <= |b|
  {
    assert b == a + (b - a);
  }

  /** In a dense map every order below the number of routes is taken. */
  lemma DenseCovers(routes: RouteMap, i: int)
    requires Dense(routes)
    requires 0 <= i < |routes|
    ensures exists k :: k in routes && routes[k].order == i
  {
    if forall k :: k in routes ==> routes[k].order != i {
      var orders := OrdersOf(routes, routes.Keys);
      OrdersOfSize(routes, routes.Keys);
      assert orders <= Below(|routes|) - {i};
      SubsetSize(orders, Below(|routes|) - {i});
      assert false;
    }
  }

  /** The orders of a dense map are exactly 0..n-1. */
  lemma DenseOrdersAreRange(routes: RouteMap)
    requires Dense(routes)
    ensures OrdersOf(routes, routes.Keys) == Below(|routes|)
  {
    var orders := OrdersOf(routes, routes.Keys);
    forall i | i in Below(|routes|) ensures i in orders {
      DenseCovers(routes, i);
    }
    forall o | o in orders ensures o in Below(|routes|) {
      var k :| k in routes.Keys && routes[k].order == o;
    }
  }

  /** The route holding order `i` of a dense map. */
  ghost function KeyAt(routes: RouteMap, i: int): (k: string)
    requires Dense(routes)
    requires 0 <= i < |routes|
    ensures k in routes && routes[k].order == i
  {
    DenseCovers(routes, i);
    var k :| k in routes && routes[k].order == i;
    k
  }

  /** `getSortedRoutes()`: the route keys in ascending order. `getSortedRoutes`
      sorts any map; this listing is defined on dense maps only, where it is
      determined. A duplicate-name `addRoute` and the route editor's save can
      leave a map that is not dense, and this function says nothing about it. */
  ghost function SortedKeys(routes: RouteMap): (r: seq<string>)
    requires Dense(routes)
    ensures |r| == |routes|
    ensures forall i :: 0 <= i < |r| ==> r[i] in routes && routes[r[i]].order == i
  {
    seq(|routes|, i requires 0 <= i < |routes| => KeyAt(routes, i))
  }

  /** The sorted listing is ascending, names every route, and names each once. */
  lemma SortedKeysListing(routes: RouteMap)
    requires Dense(routes)
    ensures forall i, j :: 0 <= i < j < |SortedKeys(routes)| ==>
              routes[SortedKeys(routes)[i]].order < routes[SortedKeys(routes)[j]].order
    ensures forall k :: k in routes ==> k in SortedKeys(routes)
    ensures forall i, j :: 0 <= i < j < |SortedKeys(routes)| ==> SortedKeys(routes)[i] != SortedKeys(routes)[j]
  {
    var r := SortedKeys(routes);
    forall k | k in routes ensures k in r {
      assert r[routes[k].order] == k;
    }
  }

  /** A listing with one key per order position is the sorted listing. */
  lemma SortedKeysUnique(routes: RouteMap, names: seq<string>)
    requires Dense(routes)
    requires |names| == |routes|
    requires forall i :: 0 <= i < |names| ==> names[i] in routes && routes[names[i]].order == i
    ensures SortedKeys(routes) == names
  {
  }

  /** The test `config.isActive` on a route key. */
  function IsActiveIn(routes: RouteMap): string -> bool {
    (k: string) => k in routes && routes[k].isActive
  }

  /** Route `a` is listed before route `b`. */
  function OrderedIn(routes: RouteMap): (string, string) -> bool {
    (a: string, b: string) => a in routes && b in routes && routes[a].order < routes[b].order
  }

  /** `getSortedRoutes().filter(([, config]) => config.isActive)`, as keys: the
      list the registration form and the public listing offer. It names every
      active route, nothing else, each once, in ascending order. */
  ghost function ActiveSortedKeys(routes: RouteMap): (r: seq<string>)
    requires Dense(routes)
    ensures forall i :: 0 <= i < |r| ==> r[i] in routes && routes[r[i]].isActive
    ensures forall k :: k in routes && routes[k].isActive ==> k in r
    ensures Seqs.Pairwise(r, OrderedIn(routes))
  {
    var all := SortedKeys(routes);
    SortedKeysListing(routes);
    assert Seqs.Pairwise(all, OrderedIn(routes));
    Seqs.FilterKeepsPairwise(all, IsActiveIn(routes), OrderedIn(routes));
    Seqs.Filter(all, IsActiveIn(routes))
  }

  // ---------------------------------------------------------------------------
  // addRoute

  ghost function MaxOf(s: set<int>): (m: int)
    requires |s| > 0
    ensures m in s
    ensures forall y :: y in s ==> y <= m
    decreases |s|
  {
    var x := PickOne(s);
    if |s| == 1 then
      assert s == {x} by {
        assert |s - {x}| == 0;
      }
      x
    else
      var rest := MaxOf(s - {x});
      assert forall y :: y in s ==> y == x || y in s - {x};
      if x > rest then x else rest
  }

  ghost function PickOne(s: set<int>): (r: int)
    requires |s| > 0
    ensures r in s
  {
    NonEmptyHasElement(s);
    var x :| x in s; x
  }

  lemma NonEmptyHasElement(s: set<int>)
    requires |s| > 0
    ensures exists x :: x in s
  {
    assert (forall x :: x !in s) ==> s == {};
  }

  lemma NonEmptyHasKey(routes: RouteMap)
    requires |routes| > 0
    ensures exists k :: k in routes
  {
    assert (forall k :: k !in routes) ==> routes.Keys == {};
  }

  /** `Math.max(...Object.values(routes).map(r => r.order))` on a non-empty map. */
  ghost function MaxOrder(routes: RouteMap): (m: int)
    requires |routes| > 0
    ensures exists k :: k in routes && routes[k].order == m
    ensures forall k :: k in routes ==> routes[k].order <= m
  {
    NonEmptyHasKey(routes);
    var k :| k in routes;
    assert routes[k].order in OrdersOf(routes, routes.Keys);
    MaxOf(OrdersOf(routes, routes.Keys))
  }

  /** `addRoute(config)`: the route is stored under its name, with the slug of
      the name as id and an order one above the largest present. An existing
      route of the same name is overwritten. `addRoute` computes `Math.max()`
      over an empty map as -Infinity; the model requires a route to exist. */
  ghost function Add(routes: RouteMap, nr: NewRoute): (r: RouteMap)
    requires |routes| > 0
    ensures r.Keys == routes.Keys + {nr.name}
    ensures forall k :: k in routes && k != nr.name ==> r[k] == routes[k]
    ensures r[nr.name].id == Text.Slug(nr.name)
    ensures r[nr.name].name == nr.name && r[nr.name].subtitle == nr.subtitle
    ensures r[nr.name].isActive == nr.isActive && r[nr.name].capacity == nr.capacity
    ensures r[nr.name].color == nr.color
    ensures forall k :: k in routes ==> routes[k].order < r[nr.name].order
    ensures exists k :: k in routes && routes[k].order == r[nr.name].order - 1
  {
    var order := MaxOrder(routes) + 1;
    routes[nr.name := RouteConfig(Text.Slug(nr.name), nr.name, nr.subtitle, nr.isActive, nr.capacity, order, nr.color)]
  }

  /** A route with a new name goes last, at order n, and the orders stay dense. */
  lemma AddFreshKeepsDense(routes: RouteMap, nr: NewRoute)
    requires Dense(routes)
    requires |routes| > 0
    requires nr.name !in routes
    ensures Dense(Add(routes, nr))
    ensures Add(routes, nr)[nr.name].order == |routes|
  {
    var r := Add(routes, nr);
    DenseCovers(routes, |routes| - 1);
    assert |r| == |routes| + 1 by {
      assert r.Keys == routes.Keys + {nr.name};
    }
  }

  /** Adding a route under a name already present overwrites it and moves it
      past the end, which leaves a gap in the orders. */
  lemma AddDuplicateLeavesGap()
    ensures var routes := map["A" := RouteConfig("a", "A", "", true, 50, 0, ""),
                              "B" := RouteConfig("b", "B", "", true, 50, 1, "")];
            !Dense(Add(routes, NewRoute("A", "", true, 50, "")))
  {
    var routes := map["A" := RouteConfig("a", "A", "", true, 50, 0, ""),
                       "B" := RouteConfig("b", "B", "", true, 50, 1, "")];
    var r := Add(routes, NewRoute("A", "", true, 50, ""));
    assert r.Keys == {"A", "B"};
    assert r["A"].order == 2;
  }

  // ---------------------------------------------------------------------------
  // updateRouteConfig

  /** `Partial<RouteConfig>`: the fields a caller chooses to overwrite. */
  datatype RoutePatch = RoutePatch(
    id: Option<string>,
    name: Option<string>,
    subtitle: Option<string>,
    isActive: Option<bool>,
    capacity: Option<int>,
    order: Option<int>,
    color: Option<string>)

  function Pick<T>(o: Option<T>, current: T): T {
    match o
    case Some(v) => v
    case None => current
  }

  /** `{ ...config, ...patch }`: the fields the patch gives replace the current ones. */
  function Merge(c: RouteConfig, p: RoutePatch): (r: RouteConfig)
    ensures r.id == (if p.id.Some? then p.id.value else c.id)
    ensures r.name == (if p.name.Some? then p.name.value else c.name)
    ensures r.subtitle == (if p.subtitle.Some? then p.subtitle.value else c.subtitle)
    ensures r.isActive == (if p.isActive.Some? then p.isActive.value else c.isActive)
    ensures r.capacity == (if p.capacity.Some? then p.capacity.value else c.capacity)
    ensures r.order == (if p.order.Some? then p.order.value else c.order)
    ensures r.color == (if p.color.Some? then p.color.value else c.color)
  {
    RouteConfig(Pick(p.id, c.id), Pick(p.name, c.name), Pick(p.subtitle, c.subtitle),
                Pick(p.isActive, c.isActive), Pick(p.capacity, c.capacity),
                Pick(p.order, c.order), Pick(p.color, c.color))
  }

  /** Applying the same patch twice is applying it once. */
  lemma MergeIdempotent(c: RouteConfig, p: RoutePatch)
    ensures Merge(Merge(c, p), p) == Merge(c, p)
  {
  }

  /** A patch that gives every field, as the copy `{ ...editingConfig }` does. */
  predicate Complete(p: RoutePatch) {
    && p.id.Some? && p.name.Some? && p.subtitle.Some? && p.isActive.Some?
    && p.capacity.Some? && p.order.Some? && p.color.Some?
  }

  /** `{ ...undefined, ...patch }` for a complete patch: the record it spells out. */
  function Spelled(p: RoutePatch): RouteConfig
    requires Complete(p)
  {
    RouteConfig(p.id.value, p.name.value, p.subtitle.value, p.isActive.value,
                p.capacity.value, p.order.value, p.color.value)
  }

  /** `updateRouteConfig(route, patch)`: an existing route takes the patch
      over its current fields and keeps its key, even when the patch renames
      it. A missing key is no error: spreading `prev.routes[route]`, which is
      `undefined`, contributes nothing, so the key is created holding the
      patch alone, whatever any earlier route of that name held. No other
      route changes. */
  function Update(routes: RouteMap, key: string, p: RoutePatch): (r: RouteMap)
    requires key in routes || Complete(p)
    ensures r.Keys == routes.Keys + {key}
    ensures forall k :: k in routes && k != key ==> r[k] == routes[k]
    ensures key in routes ==> r[key] == Merge(routes[key], p)
    ensures key !in routes ==> forall c :: Merge(c, p) == r[key]
  {
    if key in routes then routes[key := Merge(routes[key], p)]
    else routes[key := Spelled(p)]
  }

  /** A patch that leaves `order` alone keeps the orders dense. */
  lemma UpdateKeepsDense(routes: RouteMap, key: string, p: RoutePatch)
    requires key in routes && Dense(routes)
    requires p.order.None?
    ensures Dense(Update(routes, key, p))
  {
  }

  // ---------------------------------------------------------------------------
  // deleteRoute

  /** The order a route has once the route at order `gone` is removed. */
  function Compacted(order: int, gone: int): int {
    if order > gone then order - 1 else order
  }

  /** The map computation of `deleteRoute(key)`: the key is removed and every
      order above the removed one moves down by one. */
  function RemoveCompact(routes: RouteMap, key: string): (r: RouteMap)
    requires key in routes
    ensures r.Keys == routes.Keys - {key}
    ensures forall k :: k in r ==> r[k] == routes[k].(order := Compacted(routes[k].order, routes[key].order))
  {
    var gone := routes[key].order;
    map k | k in routes && k != key :: routes[k].(order := Compacted(routes[k].order, gone))
  }

  /** Removing a route from a dense map leaves a dense map: 0..n-1 becomes
      0..n-2, and the remaining routes keep their relative order. */
  lemma RemoveKeepsDense(routes: RouteMap, key: string)
    requires key in routes && Dense(routes)
    ensures Dense(RemoveCompact(routes, key))
    ensures forall a, b :: a in RemoveCompact(routes, key) && b in RemoveCompact(routes, key) ==>
              (routes[a].order < routes[b].order <==>
               RemoveCompact(routes, key)[a].order < RemoveCompact(routes, key)[b].order)
  {
    var r := RemoveCompact(routes, key);
    assert |r| == |routes| - 1 by {
      assert r.Keys == routes.Keys - {key};
    }
    if |r| > 0 {
      var gone := routes[key].order;
      forall k | k in r ensures 0 <= r[k].order < |r| {
        if routes[k].order < gone {
          assert routes[k].order < |routes| - 1;
        } else {
          assert routes[k].order > gone;
        }
      }
    }
  }

  // ---------------------------------------------------------------------------
  // reorderRoutes

  /** The order a route has after the route at `from` moves to `target`:
      moving later shifts (from, target] down by one, moving earlier shifts
      [target, from) up by one. */
  function Shifted(order: int, from: int, target: int): int {
    if from < target then
      (if from < order <= target then order - 1 else order)
    else
      (if target <= order < from then order + 1 else order)
  }

  /** `reorderRoutes(key, target)`: every route is shifted as above and the
      moved route takes order `target`. `reorderRoutes` does not range-check
      `target`, and neither does this function. */
  function Reorder(routes: RouteMap, key: string, target: int): (r: RouteMap)
    requires key in routes
    ensures r.Keys == routes.Keys
    ensures r[key] == routes[key].(order := target)
    ensures forall k :: k in routes && k != key ==>
              r[k] == routes[k].(order := Shifted(routes[k].order, routes[key].order, target))
  {
    var from := routes[key].order;
    map k | k in routes :: if k == key then routes[k].(order := target)
                           else routes[k].(order := Shifted(routes[k].order, from, target))
  }

  /** Away from the moved route, shifting is strictly increasing. */
  lemma ShiftedMonotone(a: int, b: int, from: int, target: int)
    requires a != from && b != from
    ensures a < b <==> Shifted(a, from, target) < Shifted(b, from, target)
  {
  }

  /** A shifted order never lands on the target, and stays in 0..n-1. */
  lemma ShiftedRange(a: int, from: int, target: int, n: int)
    requires a != from
    requires 0 <= a < n && 0 <= from < n && 0 <= target < n
    ensures Shifted(a, from, target) != target
    ensures 0 <= Shifted(a, from, target) < n
  {
  }

  /** Moving a route to a position in 0..n-1 of a dense map keeps it dense,
      and the other routes keep their relative order. */
  lemma ReorderKeepsDense(routes: RouteMap, key: string, target: int)
    requires key in routes && Dense(routes)
    requires 0 <= target < |routes|
    ensures Dense(Reorder(routes, key, target))
    ensures forall a, b :: a in routes && b in routes && a != key && b != key ==>
              (routes[a].order < routes[b].order <==>
               Reorder(routes, key, target)[a].order < Reorder(routes, key, target)[b].order)
  {
    var r := Reorder(routes, key, target);
    var from := routes[key].order;
    assert |r| == |routes| by {
      assert r.Keys == routes.Keys;
    }
    forall a, b | a in routes && b in routes && a != key && b != key
      ensures routes[a].order < routes[b].order <==> r[a].order < r[b].order
    {
      ShiftedMonotone(routes[a].order, routes[b].order, from, target);
    }
    forall a | a in r ensures 0 <= r[a].order < |r| {
      if a != key {
        ShiftedRange(routes[a].order, from, target, |routes|);
      }
    }
    forall a, b | a in r && b in r && a != b ensures r[a].order != r[b].order {
      if a == key {
        ShiftedRange(routes[b].order, from, target, |routes|);
      } else if b == key {
        ShiftedRange(routes[a].order, from, target, |routes|);
      } else {
        ShiftedMonotone(routes[a].order, routes[b].order, from, target);
        ShiftedMonotone(routes[b].order, routes[a].order, from, target);
      }
    }
  }

  /** Moving a route to the order it already has changes nothing. */
  lemma ReorderInPlace(routes: RouteMap, key: string)
    requires key in routes
    ensures Reorder(routes, key, routes[key].order) == routes
  {
    var r := Reorder(routes, key, routes[key].order);
    assert forall k :: k in routes ==> r[k] == routes[k];
  }
}

=== FILE: seqs.dfy ===
/**
 Sequence operations the screens borrow from JavaScript arrays: `filter`,
 `indexOf`, `sort` with a numeric comparator, and `arrayMove` from the
 drag-and-drop library; plus the pairwise-distinctness predicate the
 uniqueness invariants are written with.
 */
module Seqs {

  /** `s.filter(p)`. */
  function Filter<T>(s: seq<T>, p: T -> bool): (r: seq<T>)
    ensures |r| <= |s|
    ensures forall i :: 0 <= i < |r| ==> r[i] in s && p(r[i])
    ensures forall i :: 0 <= i < |s| && p(s[i]) ==> s[i] in r
    ensures multiset(r) <= multiset(s)
    decreases |s|
  {
    if |s| == 0 then []
    else
      assert s == [s[0]] + s[1..];
      (if p(s[0]) then [s[0]] else []) + Filter(s[1..], p)
  }

  /** An element survives filtering exactly when it is present and passes. */
  lemma FilterMembership<T>(s: seq<T>, p: T -> bool, x: T)
    ensures x in Filter(s, p) <==> x in s && p(x)
  {
    if x in s && p(x) {
      var i :| 0 <= i < |s| && s[i] == x;
    }
  }

  /** Filtering with a predicate every element meets keeps the whole sequence. */
  lemma {:induction false} FilterAll<T>(s: seq<T>, p: T -> bool)
    requires forall i :: 0 <= i < |s| ==> p(s[i])
    ensures Filter(s, p) == s
    decreases |s|
  {
    if |s| > 0 {
      FilterAll(s[1..], p);
    }
  }

  /** Every copy of an element that passes is kept: as often in the result
      as in the input. */
  lemma {:induction false} FilterKeepsCount<T>(s: seq<T>, p: T -> bool, x: T)
    requires p(x)
    ensures multiset(Filter(s, p))[x] == multiset(s)[x]
    decreases |s|
  {
    if |s| > 0 {
      assert s == [s[0]] + s[1..];
      FilterKeepsCount(s[1..], p, x);
    }
  }

  /** Filters by two tests that agree on every element are the same filter. */
  lemma {:induction false} FilterEquivalent<T>(s: seq<T>, p: T -> bool, q: T -> bool)
    requires forall i :: 0 <= i < |s| ==> p(s[i]) == q(s[i])
    ensures Filter(s, p) == Filter(s, q)
    decreases |s|
  {
    if |s| > 0 {
      FilterEquivalent(s[1..], p, q);
    }
  }

  /** Filtering with a test no element meets leaves nothing. */
  lemma {:induction false} FilterNone<T>(s: seq<T>, p: T -> bool)
    requires forall i :: 0 <= i < |s| ==> !p(s[i])
    ensures Filter(s, p) == []
    decreases |s|
  {
    if |s| > 0 {
      FilterNone(s[1..], p);
    }
  }

  /** Filtering distributes over appending one element. */
  lemma {:induction false} FilterAppend<T>(s: seq<T>, x: T, p: T -> bool)
    ensures Filter(s + [x], p) == Filter(s, p) + (if p(x) then [x] else [])
    decreases |s|
  {
    if |s| == 0 {
      assert s + [x] == [x];
    } else {
      assert (s + [x])[1..] == s[1..] + [x];
      FilterAppend(s[1..], x, p);
    }
  }

  /** Filtering twice is filtering once by both tests. */
  lemma {:induction false} FilterTwice<T>(s: seq<T>, p: T -> bool, q: T -> bool, pq: T -> bool)
    requires forall i :: 0 <= i < |s| ==> pq(s[i]) == (p(s[i]) && q(s[i]))
    ensures Filter(Filter(s, p), q) == Filter(s, pq)
    decreases |s|
  {
    if |s| > 0 {
      var tail := s[1..];
      assert forall i :: 0 <= i < |tail| ==> tail[i] == s[i + 1];
      FilterTwice(tail, p, q, pq);
      var rest := Filter(tail, p);
      var fp := Filter(s, p);
      if p(s[0]) {
        assert fp == [s[0]] + rest;
        assert fp[0] == s[0] && fp[1..] == rest;
        calc {
          Filter(fp, q);
          (if q(s[0]) then [s[0]] else []) + Filter(rest, q);
          (if pq(s[0]) then [s[0]] else []) + Filter(tail, pq);
          Filter(s, pq);
        }
      } else {
        assert fp == rest;
        assert Filter(s, pq) == Filter(tail, pq);
      }
    }
  }

  /** `rel` holds of every pair of elements taken in sequence order. */
  predicate Pairwise<T>(s: seq<T>, rel: (T, T) -> bool) {
    forall i, j :: 0 <= i < j < |s| ==> rel(s[i], s[j])
  }

  /** Dropping the first element keeps a pairwise property. */
  lemma TailPairwise<T>(s: seq<T>, rel: (T, T) -> bool)
    requires |s| > 0 && Pairwise(s, rel)
    ensures Pairwise(s[1..], rel)
  {
    var tail := s[1..];
    forall i, j | 0 <= i < j < |tail| ensures rel(tail[i], tail[j]) {
      assert tail[i] == s[i + 1] && tail[j] == s[j + 1];
    }
  }

  /** Putting in front an element related to everything keeps a pairwise
      property. */
  lemma ConsPairwise<T>(h: T, t: seq<T>, rel: (T, T) -> bool)
    requires Pairwise(t, rel)
    requires forall j :: 0 <= j < |t| ==> rel(h, t[j])
    ensures Pairwise([h] + t, rel)
  {
    var r := [h] + t;
    forall i, j | 0 <= i < j < |r| ensures rel(r[i], r[j]) {
      assert r[j] == t[j - 1];
      assert i > 0 ==> r[i] == t[i - 1];
    }
  }

  /** Dropping elements keeps a pairwise property. */
  lemma {:induction false} FilterKeepsPairwise<T>(s: seq<T>, p: T -> bool, rel: (T, T) -> bool)
    requires Pairwise(s, rel)
    ensures Pairwise(Filter(s, p), rel)
    decreases |s|
  {
    if |s| > 0 {
      var tail := s[1..];
      TailPairwise(s, rel);
      FilterKeepsPairwise(tail, p, rel);
      var ft := Filter(tail, p);
      if p(s[0]) {
        forall j | 0 <= j < |ft| ensures rel(s[0], ft[j]) {
          var k :| 0 <= k < |tail| && tail[k] == ft[j];
          assert s[k + 1] == ft[j];
        }
        ConsPairwise(s[0], ft, rel);
      }
    }
  }

  /** Appending one element keeps a pairwise property when the element is
      related to everything already present. */
  lemma AppendKeepsPairwise<T>(s: seq<T>, x: T, rel: (T, T) -> bool)
    requires Pairwise(s, rel)
    requires forall i :: 0 <= i < |s| ==> rel(s[i], x)
    ensures Pairwise(s + [x], rel)
  {
    var r := s + [x];
    forall i, j | 0 <= i < j < |r| ensures rel(r[i], r[j]) {
      if j < |s| {
        assert r[i] == s[i] && r[j] == s[j];
      }
    }
  }

  /** `s.indexOf(x)`: the first position of `x`, or -1. */
  function IndexOf<T(==)>(s: seq<T>, x: T): (r: int)
    ensures -1 <= r < |s|
    ensures r == -1 <==> x !in s
    ensures 0 <= r ==> s[r] == x && x !in s[..r]
  {
    if |s| == 0 then -1
    else if s[0] == x then 0
    else
      var k := IndexOf(s[1..], x);
      assert k >= 0 ==> s[..k + 1] == [s[0]] + s[1..][..k];
      if k == -1 then -1 else k + 1
  }

  /** `arrayMove(s, from, to)`: the element at `from` is taken out and put
      back in at position `to`. */
  function ArrayMove<T>(s: seq<T>, from: nat, to: nat): (r: seq<T>)
    requires from < |s| && to < |s|
    ensures |r| == |s|
    ensures multiset(r) == multiset(s)
    ensures r[to] == s[from]
  {
    var rest := s[..from] + s[from + 1..];
    assert s == s[..from] + [s[from]] + s[from + 1..];
    assert multiset(s) == multiset(rest) + multiset{s[from]};
    assert rest[..to] + rest[to..] == rest;
    assert multiset(rest) == multiset(rest[..to]) + multiset(rest[to..]);
    rest[..to] + [s[from]] + rest[to..]
  }

  /** Elements that are not the moved one keep their relative order, and the
      moved one lands where asked. */
  lemma ArrayMoveShape<T>(s: seq<T>, from: nat, to: nat)
    requires from < |s| && to < |s|
    ensures from <= to ==> ArrayMove(s, from, to) == s[..from] + s[from + 1..to + 1] + [s[from]] + s[to + 1..]
    ensures to <= from ==> ArrayMove(s, from, to) == s[..to] + [s[from]] + s[to..from] + s[from + 1..]
  {
  }

  /** Moving an element to where it already is changes nothing. */
  lemma ArrayMoveInPlace<T>(s: seq<T>, i: nat)
    requires i < |s|
    ensures ArrayMove(s, i, i) == s
  {
    ArrayMoveShape(s, i, i);
    assert s == s[..i] + [s[i]] + s[i + 1..];
  }

  /** The elements of a sequence in which no element occurs twice. */
  predicate Distinct<T(==)>(s: seq<T>) {
    forall i, j :: 0 <= i < j < |s| ==> s[i] != s[j]
  }

  /** No element occurs twice exactly when every element occurs at most once. */
  lemma DistinctIffSingleOccurrences<T>(s: seq<T>)
    ensures Distinct(s) <==> forall x :: multiset(s)[x] <= 1
  {
    if Distinct(s) {
      forall x ensures multiset(s)[x] <= 1 {
        DistinctCount(s, x);
      }
    } else {
      var i, j :| 0 <= i < j < |s| && s[i] == s[j];
      assert s == s[..j] + s[j..];
      assert s[i] in s[..j];
      assert s[j] in s[j..];
      assert multiset(s)[s[i]] == multiset(s[..j])[s[i]] + multiset(s[j..])[s[i]];
    }
  }

  /** Moving an element keeps a sequence free of repetitions. */
  lemma ArrayMoveDistinct<T>(s: seq<T>, from: nat, to: nat)
    requires from < |s| && to < |s|
    requires Distinct(s)
    ensures Distinct(ArrayMove(s, from, to))
  {
    DistinctIffSingleOccurrences(s);
    DistinctIffSingleOccurrences(ArrayMove(s, from, to));
  }

  lemma {:induction false} DistinctCount<T>(s: seq<T>, x: T)
    requires Distinct(s)
    ensures multiset(s)[x] <= 1
    decreases |s|
  {
    if |s| > 0 {
      assert s == [s[0]] + s[1..];
      assert Distinct(s[1..]) by {
        forall i, j | 0 <= i < j < |s[1..]| ensures s[1..][i] != s[1..][j] {
          assert s[1..][i] == s[i + 1] && s[1..][j] == s[j + 1];
        }
      }
      DistinctCount(s[1..], x);
      if s[0] == x {
        assert x !in s[1..];
      }
    }
  }

  // ---------------------------------------------------------------------------
  // `[...s].sort((a, b) => key(a) - key(b))`

  predicate SortedBy<T>(s: seq<T>, key: T -> int) {
    forall i, j :: 0 <= i < j < |s| ==> key(s[i]) <= key(s[j])
  }

  /** Putting an element with a key no larger than the first key in front of
      a sorted sequence keeps it sorted. */
  lemma SortedCons<T>(h: T, t: seq<T>, key: T -> int)
    requires SortedBy(t, key)
    requires |t| > 0 ==> key(h) <= key(t[0])
    ensures SortedBy([h] + t, key)
  {
    var r := [h] + t;
    forall i, j | 0 <= i < j < |r| ensures key(r[i]) <= key(r[j]) {
      if i > 0 {
        assert r[i] == t[i - 1] && r[j] == t[j - 1];
      } else if j > 1 {
        assert r[j] == t[j - 1];
        assert key(t[0]) <= key(t[j - 1]);
      }
    }
  }

  /** Inserts `x` after every element whose key is not larger, which is what a
      stable sort does with an element that comes last. */
  function InsertBy<T>(x: T, s: seq<T>, key: T -> int): (r: seq<T>)
    requires SortedBy(s, key)
    ensures multiset(r) == multiset(s) + multiset{x}
    ensures |r| == |s| + 1
    ensures r[0] == x || (|s| > 0 && r[0] == s[0])
    ensures SortedBy(r, key)
    decreases |s|
  {
    if |s| == 0 then [x]
    else if key(x) < key(s[0]) then
      SortedCons(x, s, key);
      [x] + s
    else
      assert s == [s[0]] + s[1..];
      var t := InsertBy(x, s[1..], key);
      assert |s| > 1 ==> key(s[0]) <= key(s[1]);
      SortedCons(s[0], t, key);
      [s[0]] + t
  }

  /** The elements whose key is `k`. */
  function KeyIs<T>(key: T -> int, k: int): T -> bool {
    (x: T) => key(x) == k
  }

  /** Filtering a sequence with a known first element. */
  lemma FilterCons<T>(a: T, t: seq<T>, p: T -> bool)
    ensures Filter([a] + t, p) == (if p(a) then [a] else []) + Filter(t, p)
  {
    assert ([a] + t)[1..] == t;
  }

  lemma AppendAssoc<T>(a: seq<T>, b: seq<T>, c: seq<T>)
    ensures a + (b + c) == (a + b) + c
  {
  }

  lemma AppendEmpty<T>(a: seq<T>)
    ensures [] + a == a && a + [] == a
  {
  }

  /** No element of a sorted sequence has a key below its first key. */
  lemma NoneBelowFirst<T>(s: seq<T>, key: T -> int, k: int)
    requires SortedBy(s, key)
    requires |s| > 0 && k < key(s[0])
    ensures Filter(s, KeyIs(key, k)) == []
  {
    var q := KeyIs(key, k);
    forall i | 0 <= i < |s| ensures !q(s[i]) {
      assert key(s[0]) <= key(s[i]);
    }
    FilterNone(s, q);
  }

  /** An element inserted in front of larger keys is the last of its key. */
  lemma InsertInFront<T>(x: T, s: seq<T>, key: T -> int, k: int)
    requires SortedBy(s, key)
    requires |s| > 0 && key(x) < key(s[0])
    ensures Filter([x] + s, KeyIs(key, k)) ==
            Filter(s, KeyIs(key, k)) + (if key(x) == k then [x] else [])
  {
    var q := KeyIs(key, k);
    var fs := Filter(s, q);
    FilterCons(x, s, q);
    AppendEmpty(fs);
    AppendEmpty([x]);
    if key(x) == k {
      NoneBelowFirst(s, key, k);
    }
  }

  /** A common first element does not change how two filters relate. */
  lemma FilterBehind<T>(h: T, t: seq<T>, rest: seq<T>, tail: seq<T>, p: T -> bool)
    requires Filter(t, p) == Filter(rest, p) + tail
    ensures Filter([h] + t, p) == Filter([h] + rest, p) + tail
  {
    var head := if p(h) then [h] else [];
    FilterCons(h, t, p);
    FilterCons(h, rest, p);
    AppendAssoc(head, Filter(rest, p), tail);
  }

  /** Inserting `x` puts it after every element of equal key, so among the
      elements of any one key it comes last. */
  lemma {:induction false} InsertByTies<T>(x: T, s: seq<T>, key: T -> int, k: int)
    requires SortedBy(s, key)
    ensures Filter(InsertBy(x, s, key), KeyIs(key, k)) ==
            Filter(s, KeyIs(key, k)) + (if key(x) == k then [x] else [])
    decreases |s|
  {
    var q := KeyIs(key, k);
    if |s| == 0 {
      FilterCons(x, [], q);
      AppendEmpty([x]);
    } else if key(x) < key(s[0]) {
      assert InsertBy(x, s, key) == [x] + s;
      InsertInFront(x, s, key, k);
    } else {
      var t := InsertBy(x, s[1..], key);
      assert InsertBy(x, s, key) == [s[0]] + t;
      InsertByTies(x, s[1..], key, k);
      FilterBehind(s[0], t, s[1..], if key(x) == k then [x] else [], q);
      assert [s[0]] + s[1..] == s;
    }
  }

  /** The sort is stable: for every key, the elements holding that key come
      out in the order they went in. */
  lemma {:induction false} SortByStable<T>(s: seq<T>, key: T -> int, k: int)
    ensures Filter(SortBy(s, key), KeyIs(key, k)) == Filter(s, KeyIs(key, k))
    decreases |s|
  {
    if |s| > 0 {
      var init, last := s[..|s| - 1], s[|s| - 1];
      assert s == init + [last];
      SortByStable(init, key, k);
      InsertByTies(last, SortBy(init, key), key, k);
      FilterAppend(init, last, KeyIs(key, k));
    }
  }

  /** The stable ascending sort by `key`. */
  function SortBy<T>(s: seq<T>, key: T -> int): (r: seq<T>)
    ensures multiset(r) == multiset(s)
    ensures SortedBy(r, key)
    decreases |s|
  {
    if |s| == 0 then []
    else
      assert s == s[..|s| - 1] + [s[|s| - 1]];
      InsertBy(s[|s| - 1], SortBy(s[..|s| - 1], key), key)
  }
}

=== FILE: student_management.dfy ===
/**
 The administrator's per-route student table: the searched list, single and
 bulk deletion, manual registration onto the tab's route, and the two status
 buttons.
 */
module StudentManagement {
  import opened Types
  import Text
  import Seqs
  import opened AppContext
  import RegistrationDisplay

  // ---------------------------------------------------------------------------
  // The list

  /** The administrator's search: the lowered term occurs in the lowered
      name, last name, code or phone. */
  predicate MatchesAdmin(s: Student, term: string) {
    var t := Text.Lower(term);
    || Text.Includes(Text.Lower(s.name), t) || Text.Includes(Text.Lower(s.lastName), t)
    || Text.Includes(Text.Lower(s.code), t) || Text.Includes(Text.Lower(s.phone), t)
  }

  /** `if (!searchTerm) return true`, then the search. */
  function AdminSearch(term: string): Student -> bool {
    (s: Student) => term == "" || MatchesAdmin(s, term)
  }

  /** A student appears in the table of `route` under search `term`. */
  predicate Managed(s: Student, route: string, term: string) {
    s.route == route && (term != "" ==> MatchesAdmin(s, term))
  }

  /** The tab's route filter. */
  function OnTab(students: seq<Student>, route: string): (r: seq<Student>)
    ensures multiset(r) <= multiset(students)
    ensures forall x :: x in r ==> x.route == route
    ensures forall x :: x in students && x.route == route ==> x in r
  {
    Seqs.Filter(students, OnRoute(route))
  }

  /** The tab's search; an empty term keeps everything. */
  function SearchTab(students: seq<Student>, term: string): (r: seq<Student>)
    ensures multiset(r) <= multiset(students)
    ensures forall x :: x in r ==> term != "" ==> MatchesAdmin(x, term)
    ensures forall x :: x in students && (term != "" ==> MatchesAdmin(x, term)) ==> x in r
  {
    Seqs.Filter(students, AdminSearch(term))
  }

  /** The table: the tab route's students that match the search, in
      ascending ticket order. It holds every such student and nothing else. */
  function ManagedList(students: seq<Student>, route: string, term: string): (r: seq<Student>)
    ensures multiset(r) <= multiset(students)
    ensures Seqs.SortedBy(r, RegistrationDisplay.TicketKey())
    ensures forall x :: x in r ==> Managed(x, route, term)
    ensures forall x :: x in students && Managed(x, route, term) ==> x in r
  {
    var onRoute := OnTab(students, route);
    var matching := SearchTab(onRoute, term);
    var r := Seqs.SortBy(matching, RegistrationDisplay.TicketKey());
    assert forall x :: x in r <==> x in multiset(matching);
    assert forall x :: x in matching ==> x in multiset(onRoute);
    assert forall x :: x in r ==> x in onRoute && x in matching;
    r
  }

  function ManagedWithTicket(route: string, term: string, k: int): Student -> bool {
    (s: Student) => Managed(s, route, term) && s.ticketNumber == k
  }

  function ManagedFilter(route: string, term: string): Student -> bool {
    (s: Student) => Managed(s, route, term)
  }

  /** Students of the table with equal tickets appear in the order the state
      holds them, because the sort is stable. */
  lemma ManagedKeepsTieOrder(students: seq<Student>, route: string, term: string, k: int)
    ensures Seqs.Filter(ManagedList(students, route, term), Seqs.KeyIs(RegistrationDisplay.TicketKey(), k))
         == Seqs.Filter(students, ManagedWithTicket(route, term, k))
  {
    var matching := SearchTab(OnTab(students, route), term);
    Seqs.FilterTwice(students, OnRoute(route), AdminSearch(term), ManagedFilter(route, term));
    Seqs.SortByStable(matching, RegistrationDisplay.TicketKey(), k);
    Seqs.FilterTwice(students, ManagedFilter(route, term), Seqs.KeyIs(RegistrationDisplay.TicketKey(), k),
                     ManagedWithTicket(route, term, k));
  }

  /** The administrator's search reaches at least as far as the public one:
      every student the public list shows for a route and term is in the
      table of that route under the same term. */
  lemma AdminSeesWhatPublicSees(students: seq<Student>, route: string, term: string)
    requires route != ""
    ensures forall x :: x in RegistrationDisplay.Listed(students, Some(route), term) ==>
              x in ManagedList(students, route, term)
  {
    var pub := RegistrationDisplay.Listed(students, Some(route), term);
    forall x | x in pub ensures x in ManagedList(students, route, term) {
      assert x in multiset(pub);
      assert x in students;
      assert RegistrationDisplay.Shown(x, Some(route), term);
      assert Managed(x, route, term);
    }
  }

  // ---------------------------------------------------------------------------
  // Deletion

  /** `handleConfirmDelete`: acts only when an id is pending (the empty id is
      falsy) and then clears it. */
  function ConfirmSingleDelete(st: AppState, pending: Option<string>): (r: (AppState, Option<string>))
    ensures (pending.None? || pending.value == "") ==> r == (st, pending)
    ensures pending.Some? && pending.value != "" ==>
              && r.1.None?
              && r.0.routes == st.routes && r.0.clarifications == st.clarifications
              && (forall x :: x in r.0.students <==> x in st.students && x.id != pending.value)
  {
    if pending.None? || pending.value == "" then (st, pending)
    else (DeleteStudent(st, pending.value), None)
  }

  /** Confirming twice deletes no more than confirming once. */
  lemma ConfirmIdempotent(st: AppState, pending: Option<string>)
    ensures var once := ConfirmSingleDelete(st, pending);
            ConfirmSingleDelete(once.0, once.1) == once
  {
  }

  /** The test "the id is not in `ids`". */
  function IdNotIn(ids: set<string>): Student -> bool {
    (s: Student) => s.id !in ids
  }

  function IdsOf(victims: seq<Student>): set<string> {
    set i | 0 <= i < |victims| :: victims[i].id
  }

  /** `victims.forEach(s => deleteStudent(s.id))`: the deletions are queued
      state updates, so each one applies to the result of the one before. */
  function DeleteAll(st: AppState, victims: seq<Student>): AppState
    decreases |victims|
  {
    if |victims| == 0 then st else DeleteAll(DeleteStudent(st, victims[0].id), victims[1..])
  }

  /** Deleting a list of students one by one removes exactly the students
      whose id is among theirs, keeps the order of the rest, and touches
      nothing but the student list. */
  lemma {:induction false} DeleteAllIsFilter(st: AppState, victims: seq<Student>)
    ensures DeleteAll(st, victims).students == Seqs.Filter(st.students, IdNotIn(IdsOf(victims)))
    ensures DeleteAll(st, victims).routes == st.routes
    ensures DeleteAll(st, victims).clarifications == st.clarifications
    decreases |victims|
  {
    if |victims| == 0 {
      Seqs.FilterAll(st.students, IdNotIn(IdsOf(victims)));
    } else {
      var first := victims[0].id;
      var rest := victims[1..];
      assert IdsOf(victims) == {first} + IdsOf(rest) by {
        forall x | x in IdsOf(victims) ensures x in {first} + IdsOf(rest) {
          var i :| 0 <= i < |victims| && victims[i].id == x;
          if i > 0 {
            assert rest[i - 1].id == x;
          }
        }
        forall x | x in IdsOf(rest) ensures x in IdsOf(victims) {
          var i :| 0 <= i < |rest| && rest[i].id == x;
          assert victims[i + 1].id == x;
        }
      }
      var st1 := DeleteStudent(st, first);
      DeleteAllIsFilter(st1, rest);
      Seqs.FilterTwice(st.students, NotId(first), IdNotIn(IdsOf(rest)), IdNotIn(IdsOf(victims)));
    }
  }

  /** Two entries of a list with unique ids that share an id are the same entry. */
  lemma SameIdSameStudent(students: seq<Student>, x: Student, y: Student)
    requires IdsUnique(students)
    requires x in students && y in students && x.id == y.id
    ensures x == y
  {
    var i :| 0 <= i < |students| && students[i] == x;
    var j :| 0 <= j < |students| && students[j] == y;
  }

  /** `handleConfirmBulkDelete`: with unique ids, exactly the students in the
      table go. Students of the route that the search hides survive, and so
      does every student of another route. */
  lemma BulkDeleteExact(st: AppState, route: string, term: string)
    requires IdsUnique(st.students)
    ensures var after := DeleteAll(st, ManagedList(st.students, route, term));
            && (forall x :: x in after.students <==> x in st.students && !Managed(x, route, term))
            && (forall x :: x in st.students && x.route != route ==> x in after.students)
            && after.routes == st.routes && after.clarifications == st.clarifications
  {
    var victims := ManagedList(st.students, route, term);
    var after := DeleteAll(st, victims);
    DeleteAllIsFilter(st, victims);
    forall x ensures x in after.students <==> x in st.students && !Managed(x, route, term) {
      Seqs.FilterMembership(st.students, IdNotIn(IdsOf(victims)), x);
      if x in st.students {
        VictimIdIffManaged(st.students, route, term, x);
      }
    }
  }

  /** With unique ids, a student's id is among the table's ids exactly when
      the student is in the table. */
  lemma VictimIdIffManaged(students: seq<Student>, route: string, term: string, x: Student)
    requires IdsUnique(students)
    requires x in students
    ensures x.id in IdsOf(ManagedList(students, route, term)) <==> Managed(x, route, term)
  {
    var victims := ManagedList(students, route, term);
    if x.id in IdsOf(victims) {
      var i :| 0 <= i < |victims| && victims[i].id == x.id;
      assert victims[i] in multiset(students);
      SameIdSameStudent(students, x, victims[i]);
    }
  }

  // ---------------------------------------------------------------------------
  // Manual registration

  /** The manual form: no route field, the tab decides it. */
  datatype ManualForm = ManualForm(name: string, lastName: string, code: string, faculty: string, phone: string)

  const EmptyManualForm: ManualForm := ManualForm("", "", "", "", "")

  predicate ManualMissingField(f: ManualForm) {
    || Text.IsBlank(f.name) || Text.IsBlank(f.lastName) || Text.IsBlank(f.code)
    || Text.IsBlank(f.phone) || f.faculty == ""
  }

  datatype ManualError = MissingFields | CodeTaken

  /** The state after a manual submission, the form, whether the form stays
      open, and the message shown. */
  datatype ManualResult = ManualResult(state: AppState, form: ManualForm, open: bool, error: Option<ManualError>)

  /** `handleManualSubmit` on the tab of `route`: a blank field refuses without
      calling the engine; otherwise `registerStudentManually` runs with the
      tab's route, a refusal is reported as a taken code, and success closes
      and clears the form. */
  function ManualSubmit(st: AppState, route: string, f: ManualForm, id: string, now: int): (r: ManualResult)
    ensures r.error == Some(MissingFields) <==> ManualMissingField(f)
    ensures r.error == Some(CodeTaken) <==> !ManualMissingField(f) && IsCodeRegistered(st.students, f.code)
    ensures r.error.Some? ==> r.state == st && r.form == f && r.open
    ensures r.error.None? ==>
              && r.form == EmptyManualForm && !r.open
              && |r.state.students| == |st.students| + 1
              && r.state.students[..|st.students|] == st.students
              && r.state.students[|st.students|].route == route
              && r.state.students[|st.students|].code == f.code
  {
    if ManualMissingField(f) then ManualResult(st, f, true, Some(MissingFields))
    else
      var data := StudentData(f.name, f.lastName, f.code, f.faculty, route, f.phone);
      var (next, ok) := RegisterStudentManually(st, data, id, now);
      if ok then ManualResult(next, EmptyManualForm, false, None)
      else ManualResult(st, f, true, Some(CodeTaken))
  }

  /** Manual registration onto an existing tab keeps the state valid. */
  lemma ManualSubmitKeepsValid(st: AppState, route: string, f: ManualForm, id: string, now: int)
    requires Valid(st)
    requires route in st.routes
    requires FreshId(st.students, id)
    ensures Valid(ManualSubmit(st, route, f, id, now).state)
  {
    var data := StudentData(f.name, f.lastName, f.code, f.faculty, route, f.phone);
    RegisterManuallyKeepsValid(st, data, id, now);
  }

  // ---------------------------------------------------------------------------
  // Status buttons

  /** The two status buttons of a row. */
  datatype StatusAction = MarkBoarded | MarkNoShow

  function StatusOf(a: StatusAction): (s: Status)
    ensures s != Pending
  {
    match a
    case MarkBoarded => Boarded
    case MarkNoShow => NoShow
  }

  /** A sequence of button presses, each on one student id. */
  function PressAll(st: AppState, presses: seq<(string, StatusAction)>): AppState
    decreases |presses|
  {
    if |presses| == 0 then st
    else PressAll(SetStudentStatus(st, presses[0].0, StatusOf(presses[0].1)), presses[1..])
  }

  /** This view has no way back to `pending`: whatever buttons are pressed,
      a student that is not pending stays not pending, a student that is
      pressed is not pending afterwards, and the list keeps its length. */
  lemma {:induction false} NoPathBackToPending(st: AppState, presses: seq<(string, StatusAction)>)
    ensures |PressAll(st, presses).students| == |st.students|
    ensures forall i :: 0 <= i < |st.students| && st.students[i].status != Pending ==>
              PressAll(st, presses).students[i].status != Pending
    ensures forall i, j :: 0 <= i < |st.students| && 0 <= j < |presses| && st.students[i].id == presses[j].0 ==>
              PressAll(st, presses).students[i].status != Pending
    decreases |presses|
  {
    if |presses| > 0 {
      var st1 := SetStudentStatus(st, presses[0].0, StatusOf(presses[0].1));
      NoPathBackToPending(st1, presses[1..]);
      forall i, j | 0 <= i < |st.students| && 0 <= j < |presses| && st.students[i].id == presses[j].0
        ensures PressAll(st, presses).students[i].status != Pending
      {
        if j > 0 {
          assert presses[1..][j - 1] == presses[j];
          assert st1.students[i].id == st.students[i].id;
        }
      }
    }
  }
}

=== FILE: text.dfy ===
/**
 String primitives the registration screens rely on: JavaScript's `trim`,
 `toLowerCase` (restricted to ASCII), `includes`, the route slug built by
 `toLowerCase().replace(/\s+/g, '-')`, and `parseInt(value) || 0`.
 */
module Text {

  /** The characters JavaScript's `trim` and the regular expression `\s` treat
      as white space: WhiteSpace and LineTerminator of ECMA-262, which includes
      every character of the Unicode category Zs. */
  predicate IsWhitespace(c: char) {
    || c == '\t' || c == '\n' || c == '\U{B}' || c == '\U{C}' || c == '\r'
    || c == ' ' || c == '\U{A0}' || c == '\U{1680}'
    || ('\U{2000}' <= c <= '\U{200A}')
    || c == '\U{2028}' || c == '\U{2029}' || c == '\U{202F}' || c == '\U{205F}'
    || c == '\U{3000}' || c == '\U{FEFF}'
  }

  predicate AllWhitespace(s: string) {
    forall i :: 0 <= i < |s| ==> IsWhitespace(s[i])
  }

  /** `s.trimStart()`: the suffix of `s` left after its leading white space. */
  function TrimStart(s: string): (r: string)
    ensures |r| <= |s| && r == s[|s| - |r|..]
    ensures AllWhitespace(s[..|s| - |r|])
    ensures r == [] || !IsWhitespace(r[0])
  {
    if |s| > 0 && IsWhitespace(s[0]) then
      var r := TrimStart(s[1..]);
      TrimStartStep(s, r);
      r
    else s
  }

  /** What is left after trimming the tail of `s` is also what is left
      after trimming `s`, when `s` starts with white space. */
  lemma TrimStartStep(s: string, r: string)
    requires |s| > 0 && IsWhitespace(s[0])
    requires |r| <= |s| - 1 && r == s[1..][|s| - 1 - |r|..]
    requires AllWhitespace(s[1..][..|s| - 1 - |r|])
    ensures r == s[|s| - |r|..]
    ensures AllWhitespace(s[..|s| - |r|])
  {
    var k := |s| - 1 - |r|;
    var run, tail := s[..k + 1], s[1..][..k];
    forall i | 0 <= i < k + 1 ensures IsWhitespace(run[i]) {
      if i > 0 {
        assert run[i] == tail[i - 1];
      }
    }
  }

  /** `s.trimEnd()`: the prefix of `s` left after its trailing white space. */
  function TrimEnd(s: string): (r: string)
    ensures |r| <= |s| && r == s[..|r|]
    ensures AllWhitespace(s[|r|..])
    ensures r == [] || !IsWhitespace(r[|r| - 1])
  {
    if |s| > 0 && IsWhitespace(s[|s| - 1]) then
      var r := TrimEnd(s[..|s| - 1]);
      assert s[..|s| - 1][|r|..] == s[|r|..|s| - 1];
      forall i | |r| <= i < |s| ensures IsWhitespace(s[i]) {
        if i < |s| - 1 {
          assert s[i] == s[..|s| - 1][|r|..][i - |r|];
        }
      }
      r
    else s
  }

  /** `s.trim()`. */
  function Trim(s: string): string {
    TrimEnd(TrimStart(s))
  }

  /** `!s.trim()`: the form checks reject a field for which this holds. */
  predicate IsBlank(s: string) {
    Trim(s) == []
  }

  /** A string is blank exactly when every one of its characters is white space. */
  lemma BlankIffAllWhitespace(s: string)
    ensures IsBlank(s) <==> AllWhitespace(s)
  {
  }

  /** `c.toLowerCase()` for ASCII letters; every other character is kept. */
  function LowerChar(c: char): (r: char)
    ensures 'A' <= c <= 'Z' ==> r as int == c as int + 32
    ensures !('A' <= c <= 'Z') ==> r == c
  {
    if 'A' <= c <= 'Z' then (c as int + 32) as char else c
  }

  /** `s.toLowerCase()` restricted to ASCII case mapping. */
  function Lower(s: string): (r: string)
    ensures |r| == |s|
    ensures forall i :: 0 <= i < |s| ==> r[i] == LowerChar(s[i])
  {
    seq(|s|, i requires 0 <= i < |s| => LowerChar(s[i]))
  }

  /** Lowering twice is lowering once. */
  lemma LowerIdempotent(s: string)
    ensures Lower(Lower(s)) == Lower(s)
  {
  }

  predicate IsPrefix(p: string, s: string) {
    |p| <= |s| && s[..|p|] == p
  }

  /** `hay.includes(needle)`, searched left to right. */
  predicate Includes(hay: string, needle: string)
    decreases |hay|
  {
    IsPrefix(needle, hay) || (|hay| > 0 && Includes(hay[1..], needle))
  }

  /** `needle` occurs in `hay` starting at position `i`. */
  predicate OccursAt(hay: string, needle: string, i: int) {
    0 <= i && i + |needle| <= |hay| && hay[i..i + |needle|] == needle
  }

  /** `Includes` holds exactly when `needle` occurs at some position of `hay`. */
  lemma {:induction false} IncludesIffOccurs(hay: string, needle: string)
    ensures Includes(hay, needle) <==> exists i :: OccursAt(hay, needle, i)
    decreases |hay|
  {
    if IsPrefix(needle, hay) {
      assert OccursAt(hay, needle, 0);
    } else if |hay| == 0 {
    } else {
      IncludesIffOccurs(hay[1..], needle);
      if Includes(hay[1..], needle) {
        var i :| OccursAt(hay[1..], needle, i);
        assert OccursAt(hay, needle, i + 1);
      }
      if exists i :: OccursAt(hay, needle, i) {
        var i :| OccursAt(hay, needle, i);
        assert i != 0;
        assert OccursAt(hay[1..], needle, i - 1);
      }
    }
  }

  /** Every string includes the empty string, so an empty search term keeps everything. */
  lemma IncludesEmpty(hay: string)
    ensures Includes(hay, "")
  {
  }

  /** `s.toLowerCase().replace(/\s+/g, '-')`: every maximal run of white space
      becomes one hyphen and every other character is lowered. */
  function Slug(s: string): (r: string)
    decreases |s|
  {
    if |s| == 0 then []
    else if IsWhitespace(s[0]) then ['-'] + Slug(TrimStart(s[1..]))
    else [LowerChar(s[0])] + Slug(s[1..])
  }

  /** A slug holds no white space at all. */
  lemma {:induction false} SlugHasNoWhitespace(s: string)
    ensures forall i :: 0 <= i < |Slug(s)| ==> !IsWhitespace(Slug(s)[i])
    decreases |s|
  {
    if |s| == 0 {
    } else if IsWhitespace(s[0]) {
      SlugHasNoWhitespace(TrimStart(s[1..]));
    } else {
      SlugHasNoWhitespace(s[1..]);
    }
  }

  /** On a name without white space the slug is the lowered name. */
  lemma {:induction false} SlugOfSingleWord(s: string)
    requires forall i :: 0 <= i < |s| ==> !IsWhitespace(s[i])
    ensures Slug(s) == Lower(s)
    decreases |s|
  {
    if |s| > 0 {
      SlugOfSingleWord(s[1..]);
      assert Lower(s) == [LowerChar(s[0])] + Lower(s[1..]);
    }
  }

  /** Slugging a slug changes nothing. */
  lemma SlugIdempotent(s: string)
    ensures Slug(Slug(s)) == Slug(s)
  {
    SlugHasNoWhitespace(s);
    SlugOfSingleWord(Slug(s));
    SlugIsLower(s);
  }

  /** No character of `t` is an upper-case ASCII letter. */
  predicate NoUpper(t: string) {
    forall i :: 0 <= i < |t| ==> !('A' <= t[i] <= 'Z')
  }

  lemma LowerOfNoUpper(t: string)
    requires NoUpper(t)
    ensures Lower(t) == t
  {
  }

  lemma {:induction false} SlugNoUpper(s: string)
    ensures NoUpper(Slug(s))
    decreases |s|
  {
    if |s| == 0 {
    } else if IsWhitespace(s[0]) {
      var rest := Slug(TrimStart(s[1..]));
      SlugNoUpper(TrimStart(s[1..]));
      assert forall i :: 1 <= i < |Slug(s)| ==> Slug(s)[i] == rest[i - 1];
    } else {
      var rest := Slug(s[1..]);
      SlugNoUpper(s[1..]);
      assert forall i :: 1 <= i < |Slug(s)| ==> Slug(s)[i] == rest[i - 1];
    }
  }

  /** A slug is already lower case. */
  lemma SlugIsLower(s: string)
    ensures Lower(Slug(s)) == Slug(s)
  {
    SlugNoUpper(s);
    LowerOfNoUpper(Slug(s));
  }

  /** Trimming a run of white space off the front of `w + b`, where `b` does
      not itself start with white space, leaves exactly `b`. */
  lemma {:induction false} TrimStartOfRun(w: string, b: string)
    requires AllWhitespace(w)
    requires b == [] || !IsWhitespace(b[0])
    ensures TrimStart(w + b) == b
    decreases |w|
  {
    if |w| == 0 {
      assert w + b == b;
    } else {
      assert (w + b)[1..] == w[1..] + b;
      TrimStartOfRun(w[1..], b);
    }
  }

  /** A word without white space is lowered letter by letter in front of
      whatever follows it. */
  lemma {:induction false} SlugOfWordPrefix(a: string, rest: string)
    requires forall i :: 0 <= i < |a| ==> !IsWhitespace(a[i])
    ensures Slug(a + rest) == Lower(a) + Slug(rest)
    decreases |a|
  {
    if |a| == 0 {
      assert a + rest == rest;
    } else {
      assert (a + rest)[1..] == a[1..] + rest;
      SlugOfWordPrefix(a[1..], rest);
      assert Lower(a) == [LowerChar(a[0])] + Lower(a[1..]);
    }
  }

  /** A whole run of white space, however long, becomes a single hyphen. */
  lemma SlugOfSpaceRun(w: string, b: string)
    requires |w| > 0 && AllWhitespace(w)
    requires b == [] || !IsWhitespace(b[0])
    ensures Slug(w + b) == "-" + Slug(b)
  {
    assert (w + b)[1..] == w[1..] + b;
    TrimStartOfRun(w[1..], b);
  }

  /** Two words separated by a maximal run of white space: the run becomes
      exactly one hyphen and the first word is lowered. */
  lemma SlugJoinsWordsWithOneHyphen(a: string, w: string, b: string)
    requires forall i :: 0 <= i < |a| ==> !IsWhitespace(a[i])
    requires |w| > 0 && AllWhitespace(w)
    requires b == [] || !IsWhitespace(b[0])
    ensures Slug(a + w + b) == Lower(a) + "-" + Slug(b)
  {
    var wb := w + b;
    var la, sb := Lower(a), Slug(b);
    assert a + w + b == a + wb;
    SlugOfWordPrefix(a, wb);
    SlugOfSpaceRun(w, b);
    assert la + ("-" + sb) == la + "-" + sb;
  }

  /** A word of ASCII letters holds no white space. */
  lemma LettersAreNotWhitespace(s: string)
    requires forall i :: 0 <= i < |s| ==> 'A' <= s[i] <= 'Z' || 'a' <= s[i] <= 'z'
    ensures forall i :: 0 <= i < |s| ==> !IsWhitespace(s[i])
  {
  }

  lemma SlugOfTwoSeedWords()
    ensures Slug("Puente" + " " + "Piedra") == Lower("Puente") + "-" + Lower("Piedra")
  {
    LettersAreNotWhitespace("Puente");
    LettersAreNotWhitespace("Piedra");
    SlugJoinsWordsWithOneHyphen("Puente", " ", "Piedra");
    SlugOfSingleWord("Piedra");
  }

  lemma LowerOfSeedWords()
    ensures Lower("Puente") + "-" + Lower("Piedra") == "puente-piedra"
  {
    assert Lower("Puente") == "puente";
    assert Lower("Piedra") == "piedra";
  }

  /** The seed route "Puente Piedra" has the id its name slugs to. */
  lemma SlugOfPuentePiedra()
    ensures Slug("Puente Piedra") == "puente-piedra"
  {
    assert "Puente Piedra" == "Puente" + " " + "Piedra";
    SlugOfTwoSeedWords();
    LowerOfSeedWords();
  }



  // ---------------------------------------------------------------------------
  // parseInt(value) || 0

  predicate IsDigit(c: char) {
    '0' <= c <= '9'
  }

  function DigitValue(c: char): int
    requires IsDigit(c)
  {
    c as int - '0' as int
  }

  /** The longest prefix of `s` made of decimal digits. */
  function LeadingDigits(s: string): (r: string)
    ensures |r| <= |s| && r == s[..|r|]
    ensures forall i :: 0 <= i < |r| ==> IsDigit(r[i])
    ensures |r| == |s| || !IsDigit(s[|r|])
  {
    if |s| > 0 && IsDigit(s[0]) then
      var r := LeadingDigits(s[1..]);
      assert s[1..][..|r|] == s[1..|r| + 1];
      [s[0]] + r
    else []
  }

  /** The number a string of decimal digits denotes, most significant first. */
  function DigitsValue(d: string): int
    requires forall i :: 0 <= i < |d| ==> IsDigit(d[i])
  {
    if |d| == 0 then 0
    else DigitsValue(d[..|d| - 1]) * 10 + DigitValue(d[|d| - 1])
  }

  /** `parseInt(s, 10) || 0`: leading white space and one sign are skipped, the
      longest run of digits is read, and a string with no digits there (NaN)
      becomes 0. A hexadecimal "0x" prefix is not handled (number inputs never
      produce one). */
  function ParseIntOrZero(s: string): int {
    var t := TrimStart(s);
    var negative := |t| > 0 && t[0] == '-';
    var body := if |t| > 0 && (t[0] == '-' || t[0] == '+') then t[1..] else t;
    var d := LeadingDigits(body);
    if |d| == 0 then 0
    else if negative then -DigitsValue(d)
    else DigitsValue(d)
  }

  /** The decimal notation of a natural number. */
  function DecimalString(n: nat): (r: string)
    ensures |r| > 0
    ensures forall i :: 0 <= i < |r| ==> IsDigit(r[i])
  {
    if n < 10 then [('0' as int + n) as char]
    else DecimalString(n / 10) + [('0' as int + n % 10) as char]
  }

  lemma {:induction false} DecimalStringValue(n: nat)
    ensures DigitsValue(DecimalString(n)) == n
  {
    if n >= 10 {
      var r := DecimalString(n);
      DecimalStringValue(n / 10);
      assert r[..|r| - 1] == DecimalString(n / 10);
    }
  }

  lemma {:induction false} LeadingDigitsOfDigits(d: string)
    requires forall i :: 0 <= i < |d| ==> IsDigit(d[i])
    ensures LeadingDigits(d) == d
  {
    if |d| > 0 {
      LeadingDigitsOfDigits(d[1..]);
    }
  }

  /** A string of digits, optionally after a minus sign, reads as its value. */
  lemma ParseDigits(d: string)
    requires |d| > 0 && forall i :: 0 <= i < |d| ==> IsDigit(d[i])
    ensures ParseIntOrZero(d) == DigitsValue(d)
    ensures ParseIntOrZero(['-'] + d) == -DigitsValue(d)
  {
    LeadingDigitsOfDigits(d);
    assert !IsWhitespace(d[0]);
    assert TrimStart(d) == d;
    var m := ['-'] + d;
    assert !IsWhitespace(m[0]);
    assert TrimStart(m) == m;
    assert m[1..] == d;
  }

  /** Reading back a number the input displays gives the number again, and a
      value with no leading digits reads as 0. */
  lemma ParseIntRoundTrip(n: nat)
    ensures ParseIntOrZero(DecimalString(n)) == n
    ensures ParseIntOrZero("") == 0
  {
    var d := DecimalString(n);
    DecimalStringValue(n);
    var v := DigitsValue(d);
    ParseDigits(d);
    assert ParseIntOrZero(d) == v;
    assert ParseIntOrZero("") == 0 by {
      assert TrimStart("") == "";
      assert LeadingDigits("") == "";
    }
  }
}

=== FILE: types.dfy ===
/**
 The records of the bus-registration application: students, clarifications
 (codes barred from self-service registration), route configurations and the
 application state that holds them.
 */
module Types {

  datatype Option<T> = None | Some(value: T)

  /** A student's boarding status: exactly one of three values. */
  datatype Status = Pending | Boarded | NoShow

  /** The faculties of the university, in the order the forms list them. */
  datatype Faculty = FAUA | FC | FIA | FIC | FIEECS | FIEE | FIGMM | FIIS | FIM | FIP | FIQT

  /** The text a faculty is stored as. */
  function FacultyCode(f: Faculty): string {
    match f
    case FAUA => "FAUA"
    case FC => "FC"
    case FIA => "FIA"
    case FIC => "FIC"
    case FIEECS => "FIEECS"
    case FIEE => "FIEE"
    case FIGMM => "FIGMM"
    case FIIS => "FIIS"
    case FIM => "FIM"
    case FIP => "FIP"
    case FIQT => "FIQT"
  }

  /** The list the registration and edit forms offer. */
  const Faculties: seq<Faculty> := [FAUA, FC, FIA, FIC, FIEECS, FIEE, FIGMM, FIIS, FIM, FIP, FIQT]

  /** The list holds every faculty once, eleven in all, and no two faculties
      are stored as the same text. */
  lemma FacultiesEnumerated()
    ensures |Faculties| == 11
    ensures forall f: Faculty :: f in Faculties
    ensures forall i, j :: 0 <= i < j < |Faculties| ==> FacultyCode(Faculties[i]) != FacultyCode(Faculties[j])
  {
    forall f: Faculty ensures f in Faculties {
      match f
      case FAUA => assert Faculties[0] == f;
      case FC => assert Faculties[1] == f;
      case FIA => assert Faculties[2] == f;
      case FIC => assert Faculties[3] == f;
      case FIEECS => assert Faculties[4] == f;
      case FIEE => assert Faculties[5] == f;
      case FIGMM => assert Faculties[6] == f;
      case FIIS => assert Faculties[7] == f;
      case FIM => assert Faculties[8] == f;
      case FIP => assert Faculties[9] == f;
      case FIQT => assert Faculties[10] == f;
    }
  }

  /** A registered student. `route` names a route by its key in the route map.
      `faculty` is kept as the text the form submitted. */
  datatype Student = Student(
    id: string,
    name: string,
    lastName: string,
    code: string,
    faculty: string,
    route: string,
    ticketNumber: int,
    status: Status,
    timestamp: int,
    phone: string)

  /** What a caller supplies to register a student: a student without id,
      ticket number, status and timestamp. */
  datatype StudentData = StudentData(
    name: string,
    lastName: string,
    code: string,
    faculty: string,
    route: string,
    phone: string)

  /** A code barred from self-service registration, with the reason. */
  datatype Clarification = Clarification(
    id: string,
    name: string,
    lastName: string,
    code: string,
    phone: string,
    reason: string,
    timestamp: int)

  /** What a caller supplies to add a clarification. */
  datatype ClarificationData = ClarificationData(
    name: string,
    lastName: string,
    code: string,
    phone: string,
    reason: string)

  /** A configured route. `capacity` and `order` are JavaScript numbers; the
      model keeps them as unbounded integers. */
  datatype RouteConfig = RouteConfig(
    id: string,
    name: string,
    subtitle: string,
    isActive: bool,
    capacity: int,
    order: int,
    color: string)

  /** What a caller supplies to add a route: a configuration without id and order. */
  datatype NewRoute = NewRoute(
    name: string,
    subtitle: string,
    isActive: bool,
    capacity: int,
    color: string)

  /** The whole application state. Routes are keyed by their name at creation. */
  datatype AppState = AppState(
    students: seq<Student>,
    routes: map<string, RouteConfig>,
    clarifications: seq<Clarification>,
    isAdmin: bool,
    currentRoute: Option<string>)
}
